=== FILE: README.md ===
# ya-syn concurrency toolkit — a Dafny model

This project models the decision logic of ya-syn, a TypeScript toolkit of
locks and memoisers. The modelled parts are:

- **Counting gate** (`CoreSemaphore`): a running count with a FIFO queue of
  waiters.
- **Guarded lock** (`Semaphore`): adds reentrancy detection, throttling,
  cancellation at admission and a fixed event trace per call.
- **`Synchronizer`**:
  - a statistics table driven by those events;
  - execution ids;
  - error context;
  - a throttle view and a timeout view.
- **Reentrancy detector**: a membership test on the chain of detector ids held
  by the current asynchronous call.
- **Memoisers and registries**:
  - one-shot lazy initialisers;
  - a TTL cache;
  - the provider's key and object registries;
  - a weakly held index map;
  - a per-object memo table.
- **Error classes** and their messages.

The asynchronous scheduler is the environment, so every decision becomes an
explicit step over immutable state:

- A gate step is a submission or a completion (`CoreSemaphore.Step`).
- One call through the lock is classified once, by the entry decision
  (`Semaphore.EnterLock`) and the cancellation probe's answer at admission.
- A timeout-view call receives two steps, admission and deadline.

Time is an integer parameter. The random UUIDs of the source are parameters
too, as is the reentrancy context that the source keeps in continuation-local
storage.

A weak reference is a target with an `alive` flag. Only the environment step
(`Collect` / `CollectKey`) clears the flag.

Callbacks are opaque handles, and how a callback settles is a parameter
(`Result<V, Failure>`).

Module layout follows the source files:

| module | source file |
|---|---|
| `Wrappers` | `Option` and `Result` |
| `Types` | vocabulary of src/types.ts |
| `Strings` | decimal rendering |
| `Errors` | src/errors.ts |
| `CoreSemaphore` | src/CoreSemaphore.ts |
| `ReentrantDetector` | src/ReentrantDetector.ts |
| `Semaphore` | src/Semaphore.ts |
| `Synchronizer` | src/Synchronizer.ts |
| `CoreLazyInitializer` | src/CoreLazyInitializer.ts |
| `LazyInitializer` | src/LazyInitializer.ts |
| `CachedProvider` | src/CachedProvider.ts |
| `WeakIndexMap` | src/WeakIndexMap.ts |
| `WeakCacheProvider` | src/WeakCacheProvider.ts |
| `SynchronizerProvider` | src/SynchronizerProvider.ts |

### Where the behaviour is easy to misread

- **Stats on Release and Finish.** The `Synchronizer` event handler
  (src/Synchronizer.ts:95-108) lowers both counters on `Release` and leaves
  them alone on `Finish`. The recorded run in
  test/StateTransitionChecker.ts:86-89 shows the same: `Release` takes both
  counters to 0, and `Finish` changes nothing (`Synchronizer.ApplyEvent`).
- **Error messages.** A message with context names the provider id twice and
  never the synchronizer id, as the code writes it
  (`Errors.MessageIgnoresSynchronizerId`).
- **Cancellation at admission.**
  - A call cancelled when the gate admits it never runs its callback.
  - The `Semaphore` resolves such a call, but `Synchronizer.synchronized` settles
    its own promise only from inside the callback, so that promise stays
    pending (`Synchronizer.Call`).
  - Its trace is just `Acquire`, so it leaves the task count one higher.
  - Only the timeout view installs a probe. It cancels only a call whose
    deadline fired first, and a `Timeout` event emitted at that deadline
    accompanies every such cancellation and restores the count.
  - A caller who passes their own `isCanceled` to `synchronized` is not covered
    by that guarantee. The balance theorem therefore covers every call end the
    predicate `Synchronizer.Accounted` admits, and `Synchronizer.CallEvents`
    states the one-task excess for the other.
- **Which errors gain context.** Errors thrown by the caller's callback never
  reach the re-raise step, because they reject the outer promise directly.
  Only the lock's own ReentrantExecution and Throttle errors are re-raised
  with the call's context.

## Model

| member | source | states |
|---|---|---|
| Errors.NewSynchronizerError | src/errors.ts:3-19 | the message is the explicit one when given, else the formatted one; the code and context getters return the constructor's parameters |
| Errors.ErrorMessage | src/errors.ts:58-63 | without context the message is `Synchronizer<code>Error`; with context it appends ` in <providerId>/<providerId>/<executionId>` |
| Errors.NewTimeoutError | src/errors.ts:21-28 | code `Timeout`, the given context, the formatted message |
| Errors.NewThrottleError | src/errors.ts:30-37 | code `Throttle`, the given context, the formatted message |
| Errors.NewInvalidError | src/errors.ts:39-47 | code `Invalid` with the caller's message |
| Errors.NewReentrantExecutionError | src/errors.ts:49-56 | code `ReentrantExecution`, the given context, the formatted message |
| Errors.MessageIgnoresSynchronizerId | src/errors.ts:62 | two contexts differing only in synchronizer id give the same message |
| Errors.MessageWithContextExtendsBare | src/errors.ts:58-63 | the bare message is a proper prefix of the message with context |
| Errors.BareMessageDeterminesCode | src/errors.ts:58-61 | distinct codes give distinct bare messages |
| CoreSemaphore.New | src/CoreSemaphore.ts:13-20 | construction succeeds iff the capacity is an integer at least 1; a fractional capacity fails with the Invalid message `concurrentExecution should be integer value, concurrentExecution=` (the number's rendering left out), an integral one below 1 with `concurrentExecution should be equal or greater than 1, concurrentExecution=<n>` |
| CoreSemaphore.Submit | src/CoreSemaphore.ts:22-37 | the task starts, adding one to running, iff running is below capacity; otherwise it is appended to the queue and running is unchanged; the gate invariant is preserved |
| CoreSemaphore.Complete | src/CoreSemaphore.ts:39-51 | with waiters the oldest is removed and started and running is unchanged; with none running drops by one; the invariant is preserved |
| CoreSemaphore.Apply | src/CoreSemaphore.ts:22-51 | one scheduler step keeps the gate valid, and the tasks it starts followed by the new queue are the old queue followed by the task it submits; a completion with nothing running is impossible |
| CoreSemaphore.RunKeepsValid | src/CoreSemaphore.ts:27-48 | any run of submissions and completions keeps `0 <= running <= capacity` and "non-empty queue implies running == capacity" |
| CoreSemaphore.RunIsFifo | src/CoreSemaphore.ts:32-45 | the tasks started, followed by those still queued, are exactly the initial queue followed by the tasks submitted, in order |
| CoreSemaphore.StartOrderIsSubmissionOrder | src/CoreSemaphore.ts:32-45 | from an empty gate, the tasks start in submission order (a prefix of the submissions) |
| ReentrantDetector.Run | src/ReentrantDetector.ts:15-26 | reentrant iff the detector's id is in the context; the context is then unchanged, otherwise the callback runs in the context with the id appended, on the fallback storage always empty |
| ReentrantDetector.NestedSameDetectorIsReentrant | src/ReentrantDetector.ts:15-26 | a detector run inside its own run reports reentrant |
| ReentrantDetector.NestedOtherDetector | src/ReentrantDetector.ts:15-26 | a different detector run inside reports not reentrant |
| ReentrantDetector.FallbackNeverReentrant | src/ReentrantDetector.ts:32-37 | on the fallback storage no call is ever reentrant |
| ReentrantDetector.Create | src/ReentrantDetector.ts:46-51 | a new detector takes the current counter as its id and the counter advances by one |
| ReentrantDetector.CreateManyIds | src/ReentrantDetector.ts:46-51 | n successive detectors get ids g, g+1, ..., all distinct |
| Semaphore.New | src/Semaphore.ts:14-16 | raiseOnReentrant defaults to false; the non-reentrant counter starts at 0; the gate is empty with the given capacity and the detector is the one passed; capacity validation, and its error, is the gate's |
| Semaphore.EnterLock | src/Semaphore.ts:24-44 | reentrant calls raise (with raiseOnReentrant) or are tolerated, and leave the lock unchanged; a throttled non-reentrant call is refused iff the counter is at capacity; otherwise Acquire is emitted, the counter rises by one and the task is submitted to the gate; the lock invariant is preserved |
| Semaphore.Settle | src/Semaphore.ts:63-65 | when an admitted call settles, the counter drops by one and the gate completes; the invariant is preserved |
| Semaphore.TraceOfEachPath | src/Semaphore.ts:26-62 | the events per path: raised none, tolerated Enter/Exit/Finish, throttled Throttle, cancelled Acquire, ran Acquire/Acquired/Release/Finish |
| Semaphore.TraceMatchesEntry | src/Semaphore.ts:26-44 | Acquire appears in a call's trace iff the entry decision admitted it; a reentrant or throttled call never emits Acquire |
| Semaphore.Outcome | src/Semaphore.ts:26-62 | a raised call fails with ReentrantExecution and a throttled one with Throttle, neither running the callback; a cancelled one succeeds without it; otherwise the callback's outcome, error included, is the call's |
| Semaphore.ThrottleRefusesIffGateFull | src/Semaphore.ts:37-41 | under the lock invariant, a throttled call is refused exactly when the gate is at capacity |
| Semaphore.ThrottledCallNeverQueues | src/Semaphore.ts:37-44 | a throttled call that is admitted starts at once, never waiting in the queue |
| Semaphore.AcquireThenSettleRestores | src/Semaphore.ts:42-65 | a call that is admitted and starts at once, then settles, leaves the lock as it was |
| Synchronizer.New | src/Synchronizer.ts:40-51 | capacity, a number, defaults to 1; construction fails with the gate's Invalid error iff it is fractional or below 1; the stats record the capacity and start with both counters at 0; missing ids come from the generator |
| Synchronizer.ApplyEvent | src/Synchronizer.ts:91-108 | Acquire adds a task, Acquired a running task, Release removes one of each, Timeout removes a task, other events change nothing; the capacity never changes |
| Synchronizer.ApplyAllAddsDeltas | src/Synchronizer.ts:91-108 | applying a trace adds the trace's summed deltas to both counters |
| Synchronizer.ReorderKeepsEffect | src/Synchronizer.ts:91-108 | any reordering of the same events has the same effect on the stats |
| Synchronizer.CallTraceIsBalanced | src/Synchronizer.ts:91-108 | every accounted per-call trace (ran, tolerated, throttled, raised, cancelled then timed out) has zero net effect on both counters; a timeout-view call follows the corrected handler described under Findings |
| Synchronizer.UnaccountedCancelLeavesOneTask | src/Semaphore.ts:42-48 | a call cancelled at admission without a following Timeout leaves the task count one higher |
| Synchronizer.FlattenIsBalanced | src/Synchronizer.ts:91-108 | the concatenation of accounted per-call traces is balanced |
| Synchronizer.DrainRestoresStats | src/Synchronizer.ts:91-108 | any interleaving of the events of accounted calls, once all have ended, leaves the stats exactly as they were; timeout-view calls are those of the corrected handler (see Findings) |
| Synchronizer.CallTraceIsOrdered | src/Semaphore.ts:42-62 | each call's own trace, from zero counters, keeps `0 <= running <= tasks` after every event: Acquired follows Acquire, and Release or Timeout closes an open task |
| Synchronizer.CallPrefixBounded | src/Synchronizer.ts:95-108 | every prefix of a call's trace has running sum between 0 and its task sum |
| Synchronizer.PartialFlattenBounded | src/Synchronizer.ts:95-108 | a workload part-way through, each call having emitted a prefix of its trace, has running sum between 0 and its task sum |
| Synchronizer.LiveStatsBounded | src/Synchronizer.ts:95-108 | at every point of a run, whatever prefix each call has emitted and in whatever interleaving, `0 <= numberOfRunningTasks <= numberOfTasks` holds if it held at the start |
| Synchronizer.DrainedCountersAreZero | src/Synchronizer.ts:42-48 | from a new synchronizer, both counters are back at 0 once a workload of accounted calls drains |
| Synchronizer.EmitAllSnapshots | src/Synchronizer.ts:109-115 | each emitted event carries its type, the call's context and a copy of the stats taken right after its own update |
| Synchronizer.ToFullParam | src/Synchronizer.ts:202-217 | a supplied execution id is kept; a bare callback or a missing id gets the generated one; callback, probe and throttle flag are carried over |
| Synchronizer.ToFullParamIdempotent | src/Synchronizer.ts:202-217 | normalising normalised parameters changes nothing |
| Synchronizer.ToContext | src/Synchronizer.ts:219-225 | the context carries the synchronizer's provider and synchronizer ids and the call's execution id |
| Synchronizer.Reraise | src/Synchronizer.ts:77-86 | ReentrantExecution and Throttle errors are replaced by the same error with the call's context; every other failure passes unchanged |
| Synchronizer.Call | src/Synchronizer.ts:57-89 | the call's context uses the normalised execution id; a raised or throttled call rejects with its error carrying that context; a cancelled one stays pending; otherwise the callback's outcome settles the call |
| Synchronizer.CallEvents | src/Synchronizer.ts:69-76 | a call emits its path's trace in order, each event with the call's context and the stats after it; the stats end unchanged for every accounted path and one task higher for a bare cancellation |
| Synchronizer.ThrottleParams | src/Synchronizer.ts:142-147 | the throttle view forwards the normalised parameters with throttle forced to true |
| Synchronizer.ThrottleViewCall | src/Synchronizer.ts:142-147 | through the throttle view a call is refused iff it is not reentrant and the admitted calls fill the capacity |
| Synchronizer.OnAdmission | src/Synchronizer.ts:174-181 | at admission a timed-out call is cancelled, a waiting one starts and runs the callback, a started one is unaffected |
| Synchronizer.OnDeadline | src/Synchronizer.ts:186-191 | the deadline moves only a waiting call, to timed out, and only then rejects |
| Synchronizer.TimeoutTransitions | src/Synchronizer.ts:170-191 | started and timed out are final: no later step changes them, runs the callback or fires the timeout |
| Synchronizer.TimeoutExclusive | src/Synchronizer.ts:170-198 | from waiting, in any order of steps, the callback runs at most once, the timeout fires at most once, and never both |
| Synchronizer.TimeoutCall | src/Synchronizer.ts:162-199 | the timeout view with the corrected handler: a call is never throttled; it is cancelled iff it queued and the deadline came first, and then it rejects with a Timeout error carrying its context and emits Acquire then Timeout; otherwise it is a plain call with the view's probe; either way the stats end as they were |
| Synchronizer.TimeoutCallAsWritten | src/Synchronizer.ts:162-199 | the timeout view as written: identical to the corrected one, except that a call not cancelled whose callback rejects with a timeout error also emits a Timeout event, which leaves the task count one lower |
| Synchronizer.NestedTimeoutUndercounts | src/Synchronizer.ts:193-196 | a call that finds a free slot and whose callback rejects with a timeout error emits five events ending in Timeout and ends with the task count one lower, so with as many tasks running as counted before it, running ends above tasks; the corrected view leaves the stats unchanged |
| Synchronizer.TimeoutForwarded | src/Synchronizer.ts:172-183 | the timeout view forwards the execution id, its own probe and the callback, dropping the caller's throttle flag and probe |
| CoreLazyInitializer.Locked | src/CoreLazyInitializer.ts:18-27 | inside the gate the factory runs iff the target is unset; a value sets it, undefined fails with Invalid, a throw leaves the target unset and propagates |
| CoreLazyInitializer.New | src/CoreLazyInitializer.ts:8-12 | a new initializer has no target: the factory is not invoked before the first get |
| CoreLazyInitializer.Get | src/CoreLazyInitializer.ts:14-28 | the lock-free check is sound: a whole get is the same as its turn in the gate |
| CoreLazyInitializer.SetTargetIsFinal | src/CoreLazyInitializer.ts:15-21 | once set, the target never changes and the factory never runs again |
| CoreLazyInitializer.ConcurrentGets | src/CoreLazyInitializer.ts:14-28 | concurrent gets served in turn: the first successful factory result is what every later get returns, and the factory runs only until one succeeds |
| CoreLazyInitializer.AllTurnsFail | src/CoreLazyInitializer.ts:18-22 | while every factory attempt throws, the target stays unset and each get retries the factory |
| LazyInitializer.NewGate | src/LazyInitializer.ts:10-12 | the gate has capacity 1 and raises on reentrancy |
| LazyInitializer.GateRaisesIffHeld | src/LazyInitializer.ts:10-12 | initializer i's gate, a raising capacity-1 lock on continuation-local storage, raises for a call iff the chain already holds initializer i, which is the test `Get` makes |
| LazyInitializer.Get | src/LazyInitializer.ts:10-12 | a set target is returned; an unset one whose gate the call chain already holds fails with ReentrantExecution; success sets the target, failure leaves it; set targets never change |
| LazyInitializer.SelfDependencyRaises | src/LazyInitializer.ts:10-12 | a factory awaiting its own initializer fails with ReentrantExecution and sets nothing |
| LazyInitializer.TwoCycleRaises | src/LazyInitializer.ts:10-12 | a cycle a -> b -> a fails with ReentrantExecution and sets neither target |
| LazyInitializer.LeafInitializes | src/CoreLazyInitializer.ts:14-28 | an initializer without dependencies is set by its first get, and later gets return the value without the factory |
| CachedProvider.New | src/CachedProvider.ts:18-25 | the cache starts empty and the default ttl is the given one, else 0 |
| CachedProvider.Locked | src/CachedProvider.ts:38-54 | inside the lock a fresh entry is returned without the factory; otherwise the factory's result is returned and, on success, stored with the time read before the call unless the timestamp hook overrides it; a failure leaves the cache |
| CachedProvider.Get | src/CachedProvider.ts:27-57 | the ttl defaults to the provider's; a request is answered from the cache iff an entry exists and is at most ttl old; a miss calls the factory under the execution id `ttl:<ttl> requestedAt:<t> cachedAt:<c>`; a successful miss stores the object with its timestamp, a failed one leaves the provider unchanged |
| CachedProvider.ServedFromCacheUntilExpiry | src/CachedProvider.ts:30-54 | after a miss stores an object, a later request is served from the cache iff it comes within the ttl, and recomputes after expiry |
| CachedProvider.ExecutionIdDeterminesRequest | src/CachedProvider.ts:37 | the execution id determines the ttl, the request time and the cache time it names |
| CachedProvider.QueueAfterFillHits | src/CachedProvider.ts:38-44 | once the cache holds an object no queued request predates, the whole queue is answered from it without the factory |
| CachedProvider.SingleFlight | src/CachedProvider.ts:27-57 | concurrent gets that all miss run the factory once and all get its object |
| CachedProvider.FailureIsNotCached | src/CachedProvider.ts:45-54 | a factory failure reaches its own request only, and the next queued request calls the factory again |
| WeakIndexMap.Get | src/WeakIndexMap.ts:26-35 | a live entry is returned without `toIndex`; otherwise `toIndex` runs once and its result is stored live and returned |
| WeakIndexMap.Collect | src/WeakIndexMap.ts:22-24 | the environment makes one entry's target unreachable without changing the size or other keys |
| WeakIndexMap.Gc | src/WeakIndexMap.ts:41-52 | the sweep keeps exactly the live entries, unchanged, and equals the reference sweep |
| WeakIndexMap.GetSize | src/WeakIndexMap.ts:37-39 | a new key raises the size by one; an existing key, even a collected one, keeps it |
| WeakIndexMap.SweptIdempotent | src/WeakIndexMap.ts:41-52 | sweeping twice is sweeping once |
| WeakIndexMap.SweptKeepsGet | src/WeakIndexMap.ts:41-52 | sweeping never changes what get returns or whether `toIndex` runs |
| WeakIndexMap.GetTwice | src/WeakIndexMap.ts:26-35 | a second get on the same key returns the first result without `toIndex` |
| WeakCacheProvider.Lookup | src/WeakCacheProvider.ts:6-9 | a stored value is a hit iff it is truthy |
| WeakCacheProvider.Get | src/WeakCacheProvider.ts:5-13 | a hit is returned without the factory; a miss stores and returns the factory's value |
| WeakCacheProvider.SecondGetHits | src/WeakCacheProvider.ts:5-13 | a second get on a key returns the first value without the factory when it is truthy, and recomputes a falsy one |
| WeakCacheProvider.KeysIndependent | src/WeakCacheProvider.ts:5-13 | a get on one key changes nothing a get on another key sees |
| SynchronizerProvider.NextId | src/SynchronizerProvider.ts:26-28 | returns the current id and advances the counter by one |
| SynchronizerProvider.NextIdsCount | src/SynchronizerProvider.ts:15-28 | successive ids are n, n+1, ...: strictly increasing |
| SynchronizerProvider.KeyNameInjective | src/SynchronizerProvider.ts:42 | the name `id:<n> key:<key>` determines both the id and the key |
| SynchronizerProvider.MergeEventListeners | src/SynchronizerProvider.ts:76-84 | no listener iff none is defined; otherwise one that calls every defined listener in order (listeners that do not throw) |
| SynchronizerProvider.DefinedMembership | src/SynchronizerProvider.ts:77 | a listener is merged in iff it was passed in defined |
| SynchronizerProvider.MergeTwo | src/SynchronizerProvider.ts:63-69 | merging the provider's and the synchronizer's listener calls the provider's first |
| SynchronizerProvider.EffectiveParams | src/SynchronizerProvider.ts:63-69 | the provider id comes from the provider, everything else from the per-call parameters, and the listeners are merged |
| SynchronizerProvider.CreateSynchronizer | src/SynchronizerProvider.ts:63-69 | the new synchronizer is built from the effective parameters and fails with the gate's Invalid error iff the capacity is fractional or below 1 |
| SynchronizerProvider.ForKey | src/SynchronizerProvider.ts:30-47 | a live entry's synchronizer is returned unchanged; otherwise the entry is dropped, one id is consumed and a synchronizer named `id:<n> key:<key>` is created and stored live; the registry invariant is preserved |
| SynchronizerProvider.CollectKey | src/SynchronizerProvider.ts:32-39 | the environment collects one key's synchronizer without touching the others |
| SynchronizerProvider.ForKeyRepeat | src/SynchronizerProvider.ts:30-36 | a repeat forKey, whatever capacity it asks for, returns the same synchronizer and changes nothing |
| SynchronizerProvider.DistinctKeysDistinctSynchronizers | src/SynchronizerProvider.ts:30-47 | different keys get different synchronizers |
| SynchronizerProvider.CollectedKeyIsRecreated | src/SynchronizerProvider.ts:32-47 | a key whose synchronizer was collected gets a new, different one and consumes one id |
| SynchronizerProvider.ForObject | src/SynchronizerProvider.ts:49-54 | a memoised object's synchronizer is returned unchanged; otherwise one id is consumed and a synchronizer named `id:<n> obj:<class>` is created and memoised |
| SynchronizerProvider.ForObjectRepeat | src/SynchronizerProvider.ts:49-54 | a repeat forObject, whatever capacity it asks for, returns the memoised synchronizer and changes nothing |
| SynchronizerProvider.CreateCachedProvider | src/SynchronizerProvider.ts:56-61 | a new cache gets the capacity-1 synchronizer memoised for it, named after the next id |

## Left out

- src/TaskExecutor.ts: a fire-and-forget dispatch loop. It relies on
  `waitComplete`, `waitCompleteAll` and `numberOfTasks`, which
  src/CoreSemaphore.ts does not implement, so their meaning would have to be
  invented. `SynchronizerProvider.executeTasks`, which delegates to it, is
  left out with it.
- src/utils/mergeGenerators.ts and src/ProcessMonitor.ts: nondeterministic
  fan-in, OS signals and timers.
- Continuation-local storage, the dynamic `async_hooks` import and Node
  detection. The reentrancy context is an explicit list. In
  `ReentrantDetector` and `Semaphore` the storage kind (continuation-local or
  fallback) is part of the detector, and on the fallback storage no call is
  ever reentrant (`ReentrantDetector.FallbackNeverReentrant`). The
  `LazyInitializer` members assume continuation-local storage. The lazy callback wrapper
  that src/Semaphore.ts imports is not part of this model; it is modelled as
  the detector's run.
- Real time, `setTimeout` and `Promise.race`. The deadline is an abstract step,
  and cached-provider times are integer parameters. A deadline is taken to
  fire after the call has emitted `Acquire`. On the very first use of a lock
  the source may emit them the other way round, while the detector is still
  being loaded.
- Promise plumbing, microtask order and the ordering of events from
  different calls, beyond each call's own trace and the reordering lemma.
- Garbage collection, `WeakRef`, `WeakMap` and the `gcInterval` timer. An
  entry's liveness is an explicit flag set only by an environment step. The
  weak-map keys of `WeakCacheProvider` are never collected in the model,
  because a collected key could not be passed to `get` again.
- `crypto.randomUUID`: generated ids are parameters (`generated`, `Oracle`).
- `CoreSemaphore.New`: the message for a non-integer capacity ends at
  `concurrentExecution=`. The rendering of the number that follows it in the
  source is left out. NaN, infinities and the rendering of non-integral
  numbers are not modelled.
- `Synchronizer.New`: a capacity is a real number, so `Infinity` and `NaN`
  cannot be passed. The source rejects both as non-integers, as the model
  does every fractional capacity. The same holds for
  `SynchronizerProvider.ForKey`, `SynchronizerProvider.ForObject` and
  `SynchronizerProvider.CreateSynchronizer`.
- `CachedProvider.Get`: ttl and times are integers. A fractional ttl, or
  `Infinity` (which renders as `ttl:Infinity` and never expires), cannot be
  passed.
- `SynchronizerProvider.MergeEventListeners`: listeners are assumed not to
  throw. In the source a throwing listener stops the ones after it.
- `Synchronizer.CallEvents`: listeners are assumed not to throw. The stats
  are updated before the listener is called, so in the source a listener
  that throws on `Acquire` rejects the call with its own error. The lock is
  untouched, but `numberOfTasks` stays one higher for good.
  `Synchronizer.EmitAllSnapshots`, `Synchronizer.DrainRestoresStats`,
  `Synchronizer.DrainedCountersAreZero` and `Synchronizer.TimeoutCall` rest
  on the same assumption.
- `Semaphore.Settle` and `Semaphore.ThrottleRefusesIffGateFull`: the model
  frees the gate slot and lowers the non-reentrant counter in one atomic
  step. In the source the gate frees its slot in `run`'s `finally`
  (src/CoreSemaphore.ts:41-42) one microtask before the counter drops
  (src/Semaphore.ts:63-65). In that window the lock invariant does not hold,
  and a throttled call can be refused while a slot is free.
- `Synchronizer.TimeoutCallAsWritten`: the extra `Timeout` event is placed
  after the call's own trace. Where it falls relative to `Release` and
  `Finish` depends on microtask order, which is not modelled. The final stats
  do not depend on it.
- `CachedProvider.capture(params, cb)` simply returns `cb(params)`: there is
  no state or decision to model.
- `Synchronizer.Call`: the "executionId is not defined" guard of
  `synchronized` and of the timeout view is unreachable after normalisation,
  because every normalised parameter record has an id; the model omits it.
- `CoreLazyInitializer`: a factory that awaits its own initializer through a
  plain capacity-1 gate deadlocks in the source. The model covers that case
  only for the raising gate, `LazyInitializer.Get`.
- `LazyInitializer.Get`: dependency graphs are modelled for sequential gets.
  Concurrent gets are covered by `CoreLazyInitializer.ConcurrentGets`.
  Reentrancy is decided on continuation-local context tracking, so
  `LazyInitializer.SelfDependencyRaises` and `LazyInitializer.TwoCycleRaises`
  hold only there. On the fallback storage the gate's detector never reports
  reentrancy, and in the source a self-dependency or a cycle then waits
  behind itself forever instead of raising. That deadlock is not modelled.
- `SynchronizerProvider.CreateSynchronizer`: the provider parameters in the
  model are the typed ones (provider id and listener). Any extra runtime
  properties an object spread would carry over are not modelled.
- The `ISemaphore` interface of src/types.ts is declared but never
  implemented, so it is not modelled.

## Findings

| source | as written | input that shows it | evidently intended | confidence | as-written member | corrected member |
|---|---|---|---|---|---|---|
| src/Synchronizer.ts:193-196 | the timeout view's race handler emits `Timeout` for every `SynchronizerTimeoutError` that rejects the race, including one raised by the callback | a call that finds a free slot and whose callback awaits another timeout-view call that times out: the events are Acquire, Acquired, Release, Finish, Timeout, and `numberOfTasks` ends one lower than it started; with another call running, `numberOfRunningTasks` then exceeds `numberOfTasks` | emit `Timeout` only when this call's own deadline fired (`state === "timeout"`), so the call nets zero on the stats | medium, not executed | Synchronizer.TimeoutCallAsWritten, Synchronizer.NestedTimeoutUndercounts | Synchronizer.TimeoutCall |

=== FILE: cached_provider.dfy ===
/** A time-to-live cache in front of an asynchronous factory. A get first
    checks the cache without the lock; on a miss it enters the provider's own
    capacity-1 synchronizer, checks again, and only then calls the factory.

    Time is explicit: `requestedAt` is the clock read when get() starts and
    `now` the clock read inside the critical section just before the factory
    is called, both in milliseconds. */
module CachedProvider {
  import opened Wrappers
  import opened Errors
  import opened Strings

  datatype Cache<T> = Cache(cachedAt: int, obj: T)

  /** `cacheTimestamp`, when given, reads the cache time off a produced object. */
  datatype Provider<!T> = Provider(cache: Option<Cache<T>>, cacheTimestamp: Option<T -> int>, defaultTtl: int)

  function New<T>(cacheTimestamp: Option<T -> int>, defaultTTL: Option<int>): (p: Provider<T>)
    ensures p.cache.None?
    ensures p.cacheTimestamp == cacheTimestamp
    ensures defaultTTL.Some? ==> p.defaultTtl == defaultTTL.value
    ensures defaultTTL.None? ==> p.defaultTtl == 0
  {
    Provider(None, cacheTimestamp, defaultTTL.GetOr(0))
  }

  /** A cached object answers a request made `requestedAt` when it is at most
      `ttl` milliseconds old at that time. */
  predicate Fresh<T>(cache: Option<Cache<T>>, requestedAt: int, ttl: int) {
    cache.Some? && requestedAt - cache.value.cachedAt <= ttl
  }

  /** The time recorded for a freshly produced object. */
  function StampOf<T>(p: Provider<T>, now: int, obj: T): int {
    if p.cacheTimestamp.Some? then p.cacheTimestamp.value(obj) else now
  }

  function CachedAtText(cachedAt: Option<int>): string {
    if cachedAt.Some? then IntToString(cachedAt.value) else "undefined"
  }

  /** The execution id a missed get hands to the synchronizer. */
  function ExecutionId(ttl: int, requestedAt: int, cachedAt: Option<int>): string {
    "ttl:" + IntToString(ttl) + " requestedAt:" + IntToString(requestedAt) + " cachedAt:" + CachedAtText(cachedAt)
  }

  /** The critical section: check again, otherwise call the factory, whose
      promise settles to `outcome`. Yields the new provider, the result and
      whether the factory was called. */
  function Locked<T>(p: Provider<T>, ttl: int, requestedAt: int, now: int, outcome: Result<T, Failure>)
    : (r: (Provider<T>, Result<T, Failure>, bool))
    ensures r.2 <==> !Fresh(p.cache, requestedAt, ttl)
    ensures !r.2 ==> r.0 == p && r.1 == Success(p.cache.value.obj)
    ensures r.2 ==> r.1 == outcome
    ensures r.2 && outcome.Success? ==>
              r.0 == p.(cache := Some(Cache(StampOf(p, now, outcome.value), outcome.value)))
    ensures outcome.Failure? ==> r.0 == p
  {
    if Fresh(p.cache, requestedAt, ttl) then (p, Success(p.cache.value.obj), false)
    else if outcome.Failure? then (p, outcome, true)
    else (p.(cache := Some(Cache(StampOf(p, now, outcome.value), outcome.value))), outcome, true)
  }

  datatype Served<!T> = Served(provider: Provider<T>, result: Result<T, Failure>, factoryCalled: bool, executionId: Option<string>)

  /** get(ttl?) run without interleaving: the unlocked check, then the locked one. */
  function Get<T>(p: Provider<T>, ttl: Option<int>, requestedAt: int, now: int, outcome: Result<T, Failure>)
    : (r: Served<T>)
    ensures var t := ttl.GetOr(p.defaultTtl);
            && (Fresh(p.cache, requestedAt, t) ==> r == Served(p, Success(p.cache.value.obj), false, None))
            && (!Fresh(p.cache, requestedAt, t) ==>
                  && r.factoryCalled
                  && r.result == outcome
                  && r.executionId == Some(ExecutionId(t, requestedAt, if p.cache.Some? then Some(p.cache.value.cachedAt) else None)))
    ensures outcome.Failure? ==> r.provider == p
    ensures !Fresh(p.cache, requestedAt, ttl.GetOr(p.defaultTtl)) && outcome.Success? ==>
              r.provider == p.(cache := Some(Cache(StampOf(p, now, outcome.value), outcome.value)))
  {
    var t := ttl.GetOr(p.defaultTtl);
    if Fresh(p.cache, requestedAt, t) then Served(p, Success(p.cache.value.obj), false, None)
    else
      var cachedAt := if p.cache.Some? then Some(p.cache.value.cachedAt) else None;
      var (p1, res, called) := Locked(p, t, requestedAt, now, outcome);
      Served(p1, res, called, Some(ExecutionId(t, requestedAt, cachedAt)))
  }

  /** An object stored at `now` by a miss answers a later request from the
      cache exactly while it is at most `ttl` old, and the factory runs again
      once it has expired. */
  lemma ServedFromCacheUntilExpiry<T>(p: Provider<T>, ttl: Option<int>, requestedAt: int, now: int, obj: T,
                                      ttl2: Option<int>, later: int, now2: int, outcome2: Result<T, Failure>)
    requires p.cacheTimestamp.None?
    requires !Fresh(p.cache, requestedAt, ttl.GetOr(p.defaultTtl))
    ensures var first := Get(p, ttl, requestedAt, now, Success(obj));
            var second := Get(first.provider, ttl2, later, now2, outcome2);
            && first.result == Success(obj)
            && (later - now <= ttl2.GetOr(p.defaultTtl) <==> !second.factoryCalled)
            && (!second.factoryCalled ==> second.result == Success(obj))
  {
    var first := Get(p, ttl, requestedAt, now, Success(obj));
    assert first.provider == p.(cache := Some(Cache(now, obj)));
  }

  /** The execution id as a space-free ttl field, a space, a space-free
      request-time field, a space and the cache-time field. */
  lemma ExecutionIdFields(t: int, r: int, c: Option<int>)
    ensures ExecutionId(t, r, c)
         == ("ttl:" + IntToString(t)) + " " + (("requestedAt:" + IntToString(r)) + " " + ("cachedAt:" + CachedAtText(c)))
  {
    var T, R, C := IntToString(t), IntToString(r), CachedAtText(c);
    assert " requestedAt:" == " " + "requestedAt:";
    assert " cachedAt:" == " " + "cachedAt:";
    calc {
      ExecutionId(t, r, c);
      "ttl:" + T + (" " + "requestedAt:") + R + (" " + "cachedAt:") + C;
      ("ttl:" + T) + " " + (("requestedAt:" + R) + " " + ("cachedAt:" + C));
    }
  }

  lemma LabelledIntHasNoSpace(tag: string, i: int)
    requires ' ' !in tag
    ensures ' ' !in tag + IntToString(i)
  {
    IntToStringHasNoSpace(i);
  }

  lemma StripLabel(tag: string, a: string, b: string)
    requires tag + a == tag + b
    ensures a == b
  {
    assert a == (tag + a)[|tag|..];
    assert b == (tag + b)[|tag|..];
  }

  lemma CachedAtTextInjective(c1: Option<int>, c2: Option<int>)
    requires CachedAtText(c1) == CachedAtText(c2)
    ensures c1 == c2
  {
    if c1.Some? && c2.Some? {
      IntToStringInjective(c1.value, c2.value);
    }
  }

  /** Distinct requests get distinct execution ids: the id determines the
      ttl, the request time and the cache time it was built from. */
  lemma ExecutionIdDeterminesRequest(t1: int, r1: int, c1: Option<int>, t2: int, r2: int, c2: Option<int>)
    requires ExecutionId(t1, r1, c1) == ExecutionId(t2, r2, c2)
    ensures t1 == t2 && r1 == r2 && c1 == c2
  {
    ExecutionIdFields(t1, r1, c1);
    ExecutionIdFields(t2, r2, c2);
    LabelledIntHasNoSpace("ttl:", t1);
    LabelledIntHasNoSpace("ttl:", t2);
    LabelledIntHasNoSpace("requestedAt:", r1);
    LabelledIntHasNoSpace("requestedAt:", r2);
    SplitAtFirstSpace("ttl:" + IntToString(t1), ("requestedAt:" + IntToString(r1)) + " " + ("cachedAt:" + CachedAtText(c1)),
                      "ttl:" + IntToString(t2), ("requestedAt:" + IntToString(r2)) + " " + ("cachedAt:" + CachedAtText(c2)));
    SplitAtFirstSpace("requestedAt:" + IntToString(r1), "cachedAt:" + CachedAtText(c1),
                      "requestedAt:" + IntToString(r2), "cachedAt:" + CachedAtText(c2));
    StripLabel("ttl:", IntToString(t1), IntToString(t2));
    StripLabel("requestedAt:", IntToString(r1), IntToString(r2));
    StripLabel("cachedAt:", CachedAtText(c1), CachedAtText(c2));
    IntToStringInjective(t1, t2);
    IntToStringInjective(r1, r2);
    CachedAtTextInjective(c1, c2);
  }

  /** One request of a burst: its ttl, its request time, the clock it would
      read inside the lock and what the factory would settle to for it. */
  datatype Request<T> = Request(ttl: Option<int>, requestedAt: int, now: int, outcome: Result<T, Failure>)

  /** Requests that all missed the unlocked check pass the lock one at a time,
      in arrival order. Yields the final provider, each request's result and
      how many times the factory ran. */
  function Drain<T>(p: Provider<T>, reqs: seq<Request<T>>): (r: (Provider<T>, seq<Result<T, Failure>>, nat))
    ensures |r.1| == |reqs|
    ensures r.2 <= |reqs|
    decreases |reqs|
  {
    if |reqs| == 0 then (p, [], 0)
    else
      var q := reqs[0];
      var (p1, res, called) := Locked(p, q.ttl.GetOr(p.defaultTtl), q.requestedAt, q.now, q.outcome);
      var (p2, rest, calls) := Drain(p1, reqs[1..]);
      (p2, [res] + rest, calls + (if called then 1 else 0))
  }

  /** Once an object is cached at a time no request precedes, and no request
      asks for a negative ttl, the whole queue is answered from the cache. */
  lemma {:induction false} QueueAfterFillHits<T>(p: Provider<T>, reqs: seq<Request<T>>)
    requires p.cache.Some?
    requires forall j :: 0 <= j < |reqs| ==>
               reqs[j].requestedAt <= p.cache.value.cachedAt && reqs[j].ttl.GetOr(p.defaultTtl) >= 0
    ensures Drain(p, reqs).0 == p && Drain(p, reqs).2 == 0
    ensures forall j :: 0 <= j < |reqs| ==> Drain(p, reqs).1[j] == Success(p.cache.value.obj)
    decreases |reqs|
  {
    if |reqs| > 0 {
      var q := reqs[0];
      var hit: Result<T, Failure> := Success(p.cache.value.obj);
      assert Locked(p, q.ttl.GetOr(p.defaultTtl), q.requestedAt, q.now, q.outcome) == (p, hit, false);
      QueueAfterFillHits(p, reqs[1..]);
    }
  }

  /** Concurrent gets that all miss the cache run the factory once: the first
      to hold the lock stores its object, and every request made before it
      read the clock is answered with that object. */
  lemma SingleFlight<T>(p: Provider<T>, reqs: seq<Request<T>>)
    requires |reqs| > 0 && p.cacheTimestamp.None?
    requires !Fresh(p.cache, reqs[0].requestedAt, reqs[0].ttl.GetOr(p.defaultTtl))
    requires reqs[0].outcome.Success?
    requires forall j :: 0 <= j < |reqs| ==>
               reqs[j].requestedAt <= reqs[0].now && reqs[j].ttl.GetOr(p.defaultTtl) >= 0
    ensures var (_, results, calls) := Drain(p, reqs);
            && calls == 1
            && forall j :: 0 <= j < |reqs| ==> results[j] == reqs[0].outcome
  {
    var q := reqs[0];
    var p1 := p.(cache := Some(Cache(q.now, q.outcome.value)));
    QueueAfterFillHits(p1, reqs[1..]);
  }

  /** A factory failure is passed to its own request only: the cache stays as
      it was, so the next request in the queue calls the factory again. */
  lemma FailureIsNotCached<T>(p: Provider<T>, reqs: seq<Request<T>>)
    requires |reqs| > 1
    requires !Fresh(p.cache, reqs[0].requestedAt, reqs[0].ttl.GetOr(p.defaultTtl))
    requires !Fresh(p.cache, reqs[1].requestedAt, reqs[1].ttl.GetOr(p.defaultTtl))
    requires reqs[0].outcome.Failure?
    ensures var (_, results, calls) := Drain(p, reqs);
            && results[0] == reqs[0].outcome
            && results[1] == reqs[1].outcome
            && calls >= 2
  {
    var p1 := Locked(p, reqs[0].ttl.GetOr(p.defaultTtl), reqs[0].requestedAt, reqs[0].now, reqs[0].outcome).0;
    assert p1 == p;
    assert reqs[1..][0] == reqs[1];
  }
}

=== FILE: core_lazy_initializer.dfy ===
/** One-shot lazy initialisation with a double check: a lock-free check of the
    target, then, inside a capacity-1 gate, a second check before calling the
    factory. Gets that found the target unset are served by the gate one at a
    time, in arrival order. */
module CoreLazyInitializer {
  import opened Wrappers
  import opened Errors

  datatype Lazy<T> = Lazy(target: Option<T>)

  /** What the factory does when it is called: produce a value, produce
      `undefined`, or throw. */
  datatype FactoryOutcome<T> = Produced(value: T) | ProducedUndefined | Threw(error: Failure)

  /** A new initializer has no target: the factory has not been called. */
  function New<T>(): (l: Lazy<T>)
    ensures l.target.None?
  {
    Lazy(None)
  }

  datatype GetReport<T> = GetReport(after: Lazy<T>, result: Result<T, Failure>, factoryCalled: bool)

  /** The lock-free check: a set target is returned at once. */
  function FastPath<T>(l: Lazy<T>): (r: Option<T>)
    ensures r == l.target
  {
    l.target
  }

  /** A get's turn inside the gate, followed by the check for an undefined
      result. The factory runs only while the target is unset. */
  function Locked<T>(l: Lazy<T>, outcome: FactoryOutcome<T>): (r: GetReport<T>)
    ensures r.factoryCalled <==> l.target.None?
    ensures l.target.Some? ==> r.after == l && r.result == Success(l.target.value)
    ensures r.after.target.Some? ==> r.result == Success(r.after.target.value)
    ensures r.result.Failure? ==> r.after == l
    ensures l.target.None? && outcome.Produced? ==> r.after.target == Some(outcome.value)
    ensures l.target.None? && outcome.ProducedUndefined? ==>
              r.result.Failure? && r.result.error.Sync? && r.result.error.err.cls == InvalidClass
    ensures l.target.None? && outcome.Threw? ==> r.result == Failure(outcome.error)
  {
    if l.target.Some? then GetReport(l, Success(l.target.value), false)
    else
      match outcome
      case Produced(v) => GetReport(Lazy(Some(v)), Success(v), true)
      case ProducedUndefined => GetReport(l, Failure(Sync(NewInvalidError("factory returned undefined", None))), true)
      case Threw(e) => GetReport(l, Failure(e), true)
  }

  /** A whole get, uninterrupted: the fast path, else its turn in the gate. */
  function Get<T>(l: Lazy<T>, outcome: FactoryOutcome<T>): (r: GetReport<T>)
    ensures r == Locked(l, outcome)
  {
    if FastPath(l).Some? then GetReport(l, Success(l.target.value), false) else Locked(l, outcome)
  }

  /** Gets that all passed the lock-free check take their turns in the gate.
      `outcomes[j]` is what the factory would do if called during turn j.
      Returns the final state, each get's result and how often the factory ran. */
  function RunTurns<T>(l: Lazy<T>, outcomes: seq<FactoryOutcome<T>>): (r: (Lazy<T>, seq<Result<T, Failure>>, nat))
    ensures |r.1| == |outcomes|
    decreases |outcomes|
  {
    if |outcomes| == 0 then (l, [], 0)
    else
      var turn := Locked(l, outcomes[0]);
      var (fin, results, calls) := RunTurns(turn.after, outcomes[1..]);
      (fin, [turn.result] + results, calls + (if turn.factoryCalled then 1 else 0))
  }

  /** Once set, the target never changes, every get returns it and the factory
      is never called again. */
  lemma {:induction false} SetTargetIsFinal<T>(l: Lazy<T>, outcomes: seq<FactoryOutcome<T>>)
    requires l.target.Some?
    ensures RunTurns(l, outcomes).0 == l
    ensures RunTurns(l, outcomes).2 == 0
    ensures forall j :: 0 <= j < |outcomes| ==> RunTurns(l, outcomes).1[j] == Success(l.target.value)
    decreases |outcomes|
  {
    if |outcomes| > 0 {
      SetTargetIsFinal(l, outcomes[1..]);
    }
  }

  /** Concurrent gets on an unset target: every turn up to the first one whose
      factory produces a value calls the factory and fails (a failure leaves
      the target unset, so the next turn retries); from that turn on every get
      returns the same value, and the factory is called no more. */
  lemma {:induction false} ConcurrentGets<T>(l: Lazy<T>, outcomes: seq<FactoryOutcome<T>>, k: nat)
    requires l.target.None?
    requires k < |outcomes| && outcomes[k].Produced?
    requires forall j :: 0 <= j < k ==> !outcomes[j].Produced?
    ensures RunTurns(l, outcomes).0.target == Some(outcomes[k].value)
    ensures RunTurns(l, outcomes).2 == k + 1
    ensures forall j :: 0 <= j < k ==> RunTurns(l, outcomes).1[j].Failure?
    ensures forall j :: k <= j < |outcomes| ==> RunTurns(l, outcomes).1[j] == Success(outcomes[k].value)
    decreases |outcomes|
  {
    var turn := Locked(l, outcomes[0]);
    var results := RunTurns(l, outcomes).1;
    if k == 0 {
      SetTargetIsFinal(turn.after, outcomes[1..]);
      forall j | 0 <= j < |outcomes|
        ensures results[j] == Success(outcomes[0].value)
      {
        if j > 0 {
          assert results[j] == RunTurns(turn.after, outcomes[1..]).1[j - 1];
        }
      }
    } else {
      assert turn.after == l;
      ConcurrentGets(l, outcomes[1..], k - 1);
      forall j | 1 <= j < |outcomes|
        ensures results[j] == RunTurns(l, outcomes[1..]).1[j - 1]
      {
      }
    }
  }

  /** When no turn's factory produces a value, every get fails, the factory is
      called once per get and the target stays unset. */
  lemma {:induction false} AllTurnsFail<T>(l: Lazy<T>, outcomes: seq<FactoryOutcome<T>>)
    requires l.target.None?
    requires forall j :: 0 <= j < |outcomes| ==> !outcomes[j].Produced?
    ensures RunTurns(l, outcomes).0 == l
    ensures RunTurns(l, outcomes).2 == |outcomes|
    ensures forall j :: 0 <= j < |outcomes| ==> RunTurns(l, outcomes).1[j].Failure?
    decreases |outcomes|
  {
    if |outcomes| > 0 {
      AllTurnsFail(l, outcomes[1..]);
      var results := RunTurns(l, outcomes).1;
      forall j | 1 <= j < |outcomes|
        ensures results[j] == RunTurns(l, outcomes[1..]).1[j - 1]
      {
      }
    }
  }
}

=== FILE: core_semaphore.dfy ===
/** The counting gate: a running count bounded by a fixed capacity and a FIFO
    queue of waiting tasks. The scheduler is explicit: a task is submitted, and
    later the environment reports that a running task completed. */
module CoreSemaphore {
  import opened Wrappers
  import opened Errors
  import Strings

  datatype Gate<T> = Gate(capacity: int, running: int, queue: seq<T>)

  /** What every reachable gate satisfies: the capacity bound, and waiters
      exist only while every slot is taken. */
  predicate Valid<T>(g: Gate<T>) {
    && 1 <= g.capacity
    && 0 <= g.running <= g.capacity
    && (|g.queue| > 0 ==> g.running == g.capacity)
  }

  predicate IsInteger(x: real) {
    x.Floor as real == x
  }

  /** A capacity the constructor accepts: an integer of at least 1. */
  predicate ValidCapacity(x: real) {
    IsInteger(x) && x >= 1.0
  }

  /** Construction: the capacity must be an integer of at least 1. */
  function New<T>(concurrentExecution: real): (r: Result<Gate<T>, SyncError>)
    ensures r.Success? <==> ValidCapacity(concurrentExecution)
    ensures r.Success? ==> r.value == Gate(concurrentExecution.Floor, 0, []) && Valid(r.value)
    ensures r.Failure? ==> r.error.cls == InvalidClass
    ensures !IsInteger(concurrentExecution) ==>
              r == Failure(NewInvalidError("concurrentExecution should be integer value, concurrentExecution=", None))
    ensures IsInteger(concurrentExecution) && concurrentExecution < 1.0 ==>
              r == Failure(NewInvalidError("concurrentExecution should be equal or greater than 1, concurrentExecution="
                                           + Strings.IntToString(concurrentExecution.Floor), None))
  {
    if !IsInteger(concurrentExecution) then
      Failure(NewInvalidError("concurrentExecution should be integer value, concurrentExecution=", None))
    else if concurrentExecution < 1.0 then
      Failure(NewInvalidError("concurrentExecution should be equal or greater than 1, concurrentExecution="
                              + Strings.IntToString(concurrentExecution.Floor), None))
    else
      Success(Gate(concurrentExecution.Floor, 0, []))
  }

  /** Submitting a task: it starts now (second component true) when a slot is
      free, and otherwise waits at the back of the queue. */
  function Submit<T>(g: Gate<T>, task: T): (r: (Gate<T>, bool))
    ensures r.1 <==> g.running < g.capacity
    ensures r.1 ==> r.0 == g.(running := g.running + 1)
    ensures !r.1 ==> r.0 == g.(queue := g.queue + [task])
    ensures Valid(g) ==> Valid(r.0)
  {
    if g.running < g.capacity then (g.(running := g.running + 1), true)
    else (g.(queue := g.queue + [task]), false)
  }

  /** A running task settles: its slot is freed and handed at once to the
      oldest waiter, which is returned. */
  function Complete<T>(g: Gate<T>): (r: (Gate<T>, Option<T>))
    requires g.running > 0
    ensures |g.queue| > 0 ==> r.1 == Some(g.queue[0]) && r.0 == g.(queue := g.queue[1..])
    ensures |g.queue| == 0 ==> r.1 == None && r.0 == g.(running := g.running - 1)
    ensures Valid(g) ==> Valid(r.0)
  {
    var freed := g.(running := g.running - 1);
    if |freed.queue| > 0 then
      (freed.(running := freed.running + 1, queue := freed.queue[1..]), Some(freed.queue[0]))
    else
      (freed, None)
  }

  /** One scheduler step seen by the gate. */
  datatype Step<T> = SubmitStep(task: T) | CompleteStep

  /** The tasks a step submits. */
  function SubmittedBy<T>(s: Step<T>): seq<T> {
    if s.SubmitStep? then [s.task] else []
  }

  /** The tasks submitted by a sequence of steps, in order. */
  function Submitted<T>(steps: seq<Step<T>>): seq<T> {
    if |steps| == 0 then [] else SubmittedBy(steps[0]) + Submitted(steps[1..])
  }

  /** One step: the new gate and the tasks it started. None when a completion
      is reported while nothing runs, which the scheduler never does. */
  function Apply<T>(g: Gate<T>, s: Step<T>): (r: Option<(Gate<T>, seq<T>)>)
    ensures r.None? <==> s.CompleteStep? && g.running <= 0
    ensures Valid(g) && r.Some? ==> Valid(r.value.0)
    ensures Valid(g) && r.Some? ==> r.value.1 + r.value.0.queue == g.queue + SubmittedBy(s)
  {
    match s
    case SubmitStep(t) =>
      var (g1, now) := Submit(g, t);
      if now then Some((g1, [t])) else Some((g1, []))
    case CompleteStep =>
      if g.running <= 0 then None
      else
        var (g1, next) := Complete(g);
        if next.Some? then
          assert g.queue == [g.queue[0]] + g.queue[1..];
          Some((g1, [next.value]))
        else Some((g1, []))
  }

  /** Runs the steps; returns the final gate and the tasks started, in the order
      they started, or None if some step is impossible. */
  function Run<T>(g: Gate<T>, steps: seq<Step<T>>): Option<(Gate<T>, seq<T>)>
    decreases |steps|
  {
    if |steps| == 0 then Some((g, []))
    else
      match Apply(g, steps[0])
      case None => None
      case Some((g1, started)) =>
        match Run(g1, steps[1..])
        case None => None
        case Some((g2, more)) => Some((g2, started + more))
  }

  /** Every reachable gate is valid: 0 <= running <= capacity, and a waiting
      task implies a saturated gate. */
  lemma {:induction false} RunKeepsValid<T>(g: Gate<T>, steps: seq<Step<T>>)
    requires Valid(g)
    requires Run(g, steps).Some?
    ensures Valid(Run(g, steps).value.0)
    decreases |steps|
  {
    if |steps| > 0 {
      RunKeepsValid(Apply(g, steps[0]).value.0, steps[1..]);
    }
  }

  /** A successful run is its first step followed by the run of the rest. */
  lemma RunCons<T>(g: Gate<T>, steps: seq<Step<T>>)
    requires |steps| > 0 && Run(g, steps).Some?
    ensures Apply(g, steps[0]).Some?
    ensures var (g1, started) := Apply(g, steps[0]).value;
            && Run(g1, steps[1..]).Some?
            && Run(g, steps).value.0 == Run(g1, steps[1..]).value.0
            && Run(g, steps).value.1 == started + Run(g1, steps[1..]).value.1
  {
  }

  /** FIFO: the tasks started, followed by those still waiting, are exactly the
      waiters already queued followed by the submitted tasks, in order. So
      tasks start in submission order and no waiter is overtaken. */
  lemma {:induction false} RunIsFifo<T>(g: Gate<T>, steps: seq<Step<T>>)
    requires Valid(g)
    requires Run(g, steps).Some?
    ensures Run(g, steps).value.1 + Run(g, steps).value.0.queue == g.queue + Submitted(steps)
    decreases |steps|
  {
    if |steps| > 0 {
      RunCons(g, steps);
      var first := Apply(g, steps[0]).value;
      var rest := steps[1..];
      RunIsFifo(first.0, rest);
      var tail := Run(first.0, rest).value;
      SeqRegroup(first.1, tail.1, tail.0.queue, first.0.queue, Submitted(rest));
      assert Submitted(steps) == SubmittedBy(steps[0]) + Submitted(rest);
    }
  }

  /** The sequence algebra of one FIFO step: if b + c == d + e then
      (a + b) + c == (a + d) + e. */
  lemma SeqRegroup<T>(a: seq<T>, b: seq<T>, c: seq<T>, d: seq<T>, e: seq<T>)
    requires b + c == d + e
    ensures (a + b) + c == (a + d) + e
  {
    calc {
      (a + b) + c;
      a + (b + c);
      a + (d + e);
    }
  }

  /** From a freshly constructed gate, tasks start exactly in the order they
      were submitted: the started sequence is a prefix of the submissions. */
  lemma StartOrderIsSubmissionOrder<T>(capacity: int, steps: seq<Step<T>>)
    requires capacity >= 1
    requires Run(Gate(capacity, 0, []), steps).Some?
    ensures var started := Run(Gate(capacity, 0, []), steps).value.1;
            |started| <= |Submitted(steps)| && started == Submitted(steps)[..|started|]
  {
    var g: Gate<T> := Gate(capacity, 0, []);
    RunIsFifo(g, steps);
    var r := Run(g, steps).value;
    assert r.1 + r.0.queue == Submitted(steps);
    assert Submitted(steps)[..|r.1|] == r.1;
  }
}

=== FILE: errors.dfy ===
/** The error taxonomy: the base synchronizer error and its four subclasses,
    each fixing its code, plus the message rule. */
module Errors {
  import opened Wrappers
  import opened Types

  /** Which class constructed the error (what `instanceof` discriminates). */
  datatype ErrorClass = BaseClass | TimeoutClass | ThrottleClass | InvalidClass | ReentrantExecutionClass

  /** The constructor parameters every synchronizer error keeps. */
  datatype ErrorParams = ErrorParams(message: Option<string>, code: string, context: Option<Context>)

  datatype SyncError = SyncError(cls: ErrorClass, params: ErrorParams) {

    /** The `code` getter. */
    function Code(): string {
      params.code
    }

    /** The `context` getter. */
    function ContextOf(): Option<Context> {
      params.context
    }

    /** The message the error was built with: the explicit one when given,
        otherwise the one derived from the code and context. */
    function Message(): string {
      params.message.GetOr(ErrorMessage(params.code, params.context))
    }
  }

  /** Anything a call can reject with: a synchronizer error, or some other
      value thrown by caller code (opaque here). */
  datatype Failure = Sync(err: SyncError) | Thrown(payload: nat)

  /** Message derived from a code and an optional context. The provider id is
      printed twice and the synchronizer id not at all, as in the source. */
  function ErrorMessage(code: string, context: Option<Context>): (m: string)
    ensures context.None? ==> m == "Synchronizer" + code + "Error"
    ensures context.Some? ==>
              m == "Synchronizer" + code + "Error in " + context.value.providerId + "/"
                   + context.value.providerId + "/" + context.value.executionId
  {
    match context
    case None => "Synchronizer" + code + "Error"
    case Some(c) => "Synchronizer" + code + "Error in " + c.providerId + "/" + c.providerId + "/" + c.executionId
  }

  /** The base class: keeps whatever code and message it is given. */
  function NewSynchronizerError(message: Option<string>, code: string, context: Option<Context>): (e: SyncError)
    ensures e.cls == BaseClass
    ensures e.Code() == code && e.ContextOf() == context
    ensures message.Some? ==> e.Message() == message.value
    ensures message.None? ==> e.Message() == ErrorMessage(code, context)
  {
    SyncError(BaseClass, ErrorParams(message, code, context))
  }

  function NewTimeoutError(context: Option<Context>): (e: SyncError)
    ensures e.cls == TimeoutClass && e.Code() == "Timeout" && e.ContextOf() == context
    ensures e.Message() == ErrorMessage("Timeout", context)
  {
    SyncError(TimeoutClass, ErrorParams(None, "Timeout", context))
  }

  function NewThrottleError(context: Option<Context>): (e: SyncError)
    ensures e.cls == ThrottleClass && e.Code() == "Throttle" && e.ContextOf() == context
    ensures e.Message() == ErrorMessage("Throttle", context)
  {
    SyncError(ThrottleClass, ErrorParams(None, "Throttle", context))
  }

  /** The only subclass that takes an explicit message. */
  function NewInvalidError(message: string, context: Option<Context>): (e: SyncError)
    ensures e.cls == InvalidClass && e.Code() == "Invalid" && e.ContextOf() == context
    ensures e.Message() == message
  {
    SyncError(InvalidClass, ErrorParams(Some(message), "Invalid", context))
  }

  function NewReentrantExecutionError(context: Option<Context>): (e: SyncError)
    ensures e.cls == ReentrantExecutionClass && e.Code() == "ReentrantExecution" && e.ContextOf() == context
    ensures e.Message() == ErrorMessage("ReentrantExecution", context)
  {
    SyncError(ReentrantExecutionClass, ErrorParams(None, "ReentrantExecution", context))
  }

  /** The synchronizer id never influences a derived message. */
  lemma MessageIgnoresSynchronizerId(code: string, c: Context, otherId: string)
    ensures ErrorMessage(code, Some(c)) == ErrorMessage(code, Some(c.(synchronizerId := otherId)))
  {
  }

  /** The context-free message is a prefix of every message with context, so the
      code can be read off any derived message. */
  lemma MessageWithContextExtendsBare(code: string, c: Context)
    ensures var bare := ErrorMessage(code, None);
            var full := ErrorMessage(code, Some(c));
            |bare| < |full| && full[..|bare|] == bare
  {
    var bare := ErrorMessage(code, None);
    var full := ErrorMessage(code, Some(c));
    assert full == bare + (" in " + c.providerId + "/" + c.providerId + "/" + c.executionId);
  }

  /** Two derived messages without context agree only when the codes agree. */
  lemma BareMessageDeterminesCode(a: string, b: string)
    requires ErrorMessage(a, None) == ErrorMessage(b, None)
    ensures a == b
  {
    var ma := ErrorMessage(a, None);
    assert |a| == |b|;
    assert a == ma[12..12 + |a|];
    assert b == ErrorMessage(b, None)[12..12 + |b|];
  }
}

=== FILE: lazy_initializer.dfy ===
/** The lazy initializer whose gate is a capacity-1 guarded lock that raises
    on reentrancy, so that a factory depending on its own initializer, directly
    or through a cycle, fails instead of deadlocking.

    Initializers form a graph: initializer i's factory awaits the gets of its
    dependencies in order, then yields its own value (or `undefined`). The
    reentrancy context is the chain of initializers whose gates the current
    call chain holds; each initializer's gate detector has id i. */
module LazyInitializer {
  import opened Wrappers
  import opened Errors
  import Semaphore
  import ReentrantDetector

  /** The gate: capacity 1, raising on reentrancy. */
  function NewGate(detector: ReentrantDetector.Detector): (r: Result<Semaphore.Lock, SyncError>)
    ensures r.Success?
    ensures Semaphore.Capacity(r.value) == 1 && r.value.raiseOnReentrant
    ensures Semaphore.Inv(r.value) && r.value.runningWithoutReenter == 0
  {
    Semaphore.New(1.0, detector, Some(true))
  }

  /** Initializer i's gate, on continuation-local storage, raises for a call
      exactly when the chain already holds initializer i: this is the
      `i in ctx` test that `Get` makes. */
  lemma GateRaisesIffHeld(i: nat, callId: nat, ctx: seq<nat>, throttle: bool)
    ensures var g := NewGate(ReentrantDetector.Detector(ReentrantDetector.ContinuationLocal, i)).value;
            Semaphore.EnterLock(g, callId, ctx, throttle).1 == Semaphore.RaiseReentrant <==> i in ctx
  {
  }

  datatype Initializer<V> = Initializer(deps: seq<nat>, produces: Option<V>)

  predicate WellFormed<V>(inits: seq<Initializer<V>>, targets: seq<Option<V>>) {
    && |targets| == |inits|
    && forall i, k :: 0 <= i < |inits| && 0 <= k < |inits[i].deps| ==> inits[i].deps[k] < |inits|
  }

  /** Initializers whose gates the chain does not hold yet. */
  function Unvisited(n: nat, ctx: seq<nat>): set<nat> {
    set j | 0 <= j < n && j !in ctx
  }

  lemma EnteringShrinksUnvisited(n: nat, ctx: seq<nat>, i: nat)
    requires i < n && i !in ctx
    ensures Unvisited(n, ctx + [i]) < Unvisited(n, ctx)
  {
    assert i in Unvisited(n, ctx);
  }

  /** Targets that were set stay set to the same value, and initializers on
      the chain that were unset stay unset. */
  ghost predicate Grows<V>(before: seq<Option<V>>, after: seq<Option<V>>, ctx: seq<nat>) {
    && |after| == |before|
    && (forall j :: 0 <= j < |before| && before[j].Some? ==> after[j] == before[j])
    && (forall j :: 0 <= j < |before| && j in ctx && before[j].None? ==> after[j].None?)
  }

  /** get() on initializer i, from a call chain holding the gates in `ctx`. */
  function Get<V>(inits: seq<Initializer<V>>, targets: seq<Option<V>>, i: nat, ctx: seq<nat>)
    : (r: (seq<Option<V>>, Result<V, Failure>))
    requires WellFormed(inits, targets) && i < |inits|
    ensures Grows(targets, r.0, ctx)
    ensures targets[i].Some? ==> r == (targets, Success(targets[i].value))
    ensures targets[i].None? && i in ctx ==> r == (targets, Failure(Sync(NewReentrantExecutionError(None))))
    ensures r.1.Success? ==> r.0[i] == Some(r.1.value)
    ensures r.1.Failure? ==> r.0[i] == targets[i]
    decreases Unvisited(|inits|, ctx), 0
  {
    if targets[i].Some? then (targets, Success(targets[i].value))
    else if i in ctx then (targets, Failure(Sync(NewReentrantExecutionError(None))))
    else
      EnteringShrinksUnvisited(|inits|, ctx, i);
      var (t1, deps) := AwaitDeps(inits, targets, i, 0, ctx + [i]);
      if deps.Failure? then (t1, Failure(deps.error))
      else if inits[i].produces.None? then
        (t1, Failure(Sync(NewInvalidError("factory returned undefined", None))))
      else
        (t1[i := inits[i].produces], Success(inits[i].produces.value))
  }

  /** Initializer i's factory awaiting its dependencies from the k-th on; the
      first failure is rethrown. */
  function AwaitDeps<V>(inits: seq<Initializer<V>>, targets: seq<Option<V>>, i: nat, k: nat, ctx: seq<nat>)
    : (r: (seq<Option<V>>, Result<(), Failure>))
    requires WellFormed(inits, targets) && i < |inits| && k <= |inits[i].deps|
    ensures Grows(targets, r.0, ctx)
    decreases Unvisited(|inits|, ctx), 1, |inits[i].deps| - k
  {
    if k == |inits[i].deps| then (targets, Success(()))
    else
      var (t1, res) := Get(inits, targets, inits[i].deps[k], ctx);
      if res.Failure? then (t1, Failure(res.error))
      else AwaitDeps(inits, t1, i, k + 1, ctx)
  }

  /** A factory that awaits its own initializer fails with ReentrantExecution
      and leaves the target unset. */
  lemma SelfDependencyRaises<V>(inits: seq<Initializer<V>>, targets: seq<Option<V>>, c: nat)
    requires WellFormed(inits, targets) && c < |inits|
    requires inits[c].deps == [c] && targets[c].None?
    ensures Get(inits, targets, c, []).1 == Failure(Sync(NewReentrantExecutionError(None)))
    ensures Get(inits, targets, c, []).0 == targets
  {
    EnteringShrinksUnvisited(|inits|, [], c);
    assert AwaitDeps(inits, targets, c, 0, [c]).1 == Failure(Sync(NewReentrantExecutionError(None)));
  }

  /** A cycle a -> b -> a fails with ReentrantExecution and sets neither target. */
  lemma TwoCycleRaises<V>(inits: seq<Initializer<V>>, targets: seq<Option<V>>, a: nat, b: nat)
    requires WellFormed(inits, targets) && a < |inits| && b < |inits| && a != b
    requires inits[a].deps == [b] && inits[b].deps == [a]
    requires targets[a].None? && targets[b].None?
    ensures Get(inits, targets, a, []).1 == Failure(Sync(NewReentrantExecutionError(None)))
    ensures Get(inits, targets, a, []).0 == targets
  {
    var reentrant := Failure(Sync(NewReentrantExecutionError(None)));
    assert [] + [a] == [a];
    assert [a] + [b] == [a, b];
    var inner := Get(inits, targets, a, [a, b]);
    assert inner == (targets, reentrant);
    var viaB := AwaitDeps(inits, targets, b, 0, [a, b]);
    assert viaB.0 == targets && viaB.1.Failure? && viaB.1.error == reentrant.error;
    assert Get(inits, targets, b, [a]) == (targets, reentrant);
    var viaA := AwaitDeps(inits, targets, a, 0, [a]);
    assert viaA.0 == targets && viaA.1.Failure? && viaA.1.error == reentrant.error;
  }

  /** An initializer without dependencies whose factory yields a value is set
      to it by its first get, and later gets return it without the factory. */
  lemma LeafInitializes<V>(inits: seq<Initializer<V>>, targets: seq<Option<V>>, c: nat)
    requires WellFormed(inits, targets) && c < |inits|
    requires inits[c].deps == [] && inits[c].produces.Some? && targets[c].None?
    ensures var (t1, r) := Get(inits, targets, c, []);
            && r == Success(inits[c].produces.value)
            && Get(inits, t1, c, []) == (t1, r)
  {
    EnteringShrinksUnvisited(|inits|, [], c);
  }
}

=== FILE: reentrant_detector.dfy ===
/** Reentrancy detection. The continuation-local store is passed explicitly:
    a context is the list of detector ids entered by the current call chain. */
module ReentrantDetector {

  /** The store behind every detector: the continuation-local one, or the
      fallback used where none exists, whose store is always empty and which
      never installs a context. */
  datatype Storage = ContinuationLocal | Fallback

  datatype Detector = Detector(storage: Storage, id: nat)

  /** What the store returns for a chain whose installed context is `ctx`. */
  function GetStore(storage: Storage, ctx: seq<nat>): (ids: seq<nat>)
    ensures storage.Fallback? ==> ids == []
    ensures storage.ContinuationLocal? ==> ids == ctx
  {
    if storage.Fallback? then [] else ctx
  }

  /** Runs a callback under the detector: reports whether the chain already
      entered this detector, and the context the callback runs in. */
  function Run(d: Detector, ctx: seq<nat>): (r: (bool, seq<nat>))
    ensures r.0 <==> d.storage.ContinuationLocal? && d.id in ctx
    ensures r.0 ==> r.1 == ctx
    ensures !r.0 && d.storage.ContinuationLocal? ==> r.1 == ctx + [d.id] && r.1[..|ctx|] == ctx
    ensures d.storage.Fallback? ==> r.1 == []
    ensures d.id in GetStore(d.storage, r.1) <==> d.storage.ContinuationLocal?
  {
    var ids := GetStore(d.storage, ctx);
    if d.id in ids then (true, ctx)
    else if d.storage.Fallback? then (false, [])
    else (false, ids + [d.id])
  }

  /** A run of a detector nested inside its own run always reports reentrant. */
  lemma NestedSameDetectorIsReentrant(d: Detector, ctx: seq<nat>)
    requires d.storage.ContinuationLocal?
    ensures Run(d, Run(d, ctx).1).0
  {
  }

  /** A different detector nested inside reports reentrant only if the outer
      chain had already entered it. */
  lemma NestedOtherDetector(outer: Detector, inner: Detector, ctx: seq<nat>)
    requires outer.storage == inner.storage == ContinuationLocal
    requires outer.id != inner.id
    ensures Run(inner, Run(outer, ctx).1).0 <==> inner.id in ctx
  {
  }

  /** On the fallback store nothing is ever reported reentrant, however deeply
      calls nest. */
  lemma FallbackNeverReentrant(d: Detector, ctx: seq<nat>)
    requires d.storage.Fallback?
    ensures !Run(d, ctx).0
  {
  }

  /** The factory hands out ids in sequence. */
  datatype Factory = Factory(storage: Storage, idGenerator: nat)

  function Create(f: Factory): (r: (Factory, Detector))
    ensures r.1.id == f.idGenerator && r.1.storage == f.storage
    ensures r.0.idGenerator == f.idGenerator + 1 && r.0.storage == f.storage
  {
    (f.(idGenerator := f.idGenerator + 1), Detector(f.storage, f.idGenerator))
  }

  /** Creates `n` detectors one after another. */
  function CreateMany(f: Factory, n: nat): (r: (Factory, seq<Detector>))
    ensures |r.1| == n
    ensures r.0.idGenerator == f.idGenerator + n
    decreases n
  {
    if n == 0 then (f, [])
    else
      var (f1, d) := Create(f);
      var (f2, ds) := CreateMany(f1, n - 1);
      (f2, [d] + ds)
  }

  /** The i-th detector created gets id idGenerator + i: from a fresh factory
      the ids are 0, 1, 2, ..., so no two detectors share an id. */
  lemma {:induction false} CreateManyIds(f: Factory, n: nat)
    ensures forall i :: 0 <= i < n ==> CreateMany(f, n).1[i].id == f.idGenerator + i
    ensures forall i, j :: 0 <= i < j < n ==> CreateMany(f, n).1[i].id != CreateMany(f, n).1[j].id
    decreases n
  {
    if n > 0 {
      var (f1, d) := Create(f);
      CreateManyIds(f1, n - 1);
      var ds := CreateMany(f, n).1;
      assert ds == [d] + CreateMany(f1, n - 1).1;
      forall i | 0 <= i < n
        ensures ds[i].id == f.idGenerator + i
      {
        if i > 0 {
          assert ds[i] == CreateMany(f1, n - 1).1[i - 1];
        }
      }
    }
  }
}

=== FILE: semaphore.dfy ===
/** The guarded lock: the counting gate plus reentrancy detection, a throttle
    admission mode, cancellation at admission, a fixed event trace per call,
    and a counter of admitted non-reentrant calls that have not settled. */
module Semaphore {
  import opened Wrappers
  import opened Types
  import opened Errors
  import CoreSemaphore
  import ReentrantDetector

  datatype Lock = Lock(
    gate: CoreSemaphore.Gate<nat>,
    detector: ReentrantDetector.Detector,
    raiseOnReentrant: bool,
    runningWithoutReenter: int)

  function Capacity(l: Lock): int {
    l.gate.capacity
  }

  /** Construction: validates the capacity like the gate; raising on
      reentrancy is off unless asked for. */
  function New(concurrentExecution: real, detector: ReentrantDetector.Detector, raiseOnReentrant: Option<bool>): (r: Result<Lock, SyncError>)
    ensures r.Success? <==> CoreSemaphore.New<nat>(concurrentExecution).Success?
    ensures r.Failure? ==> r.error.cls == InvalidClass && r.error == CoreSemaphore.New<nat>(concurrentExecution).error
    ensures r.Success? ==> r.value.raiseOnReentrant == (raiseOnReentrant == Some(true))
    ensures r.Success? ==> r.value.runningWithoutReenter == 0 && Inv(r.value)
    ensures r.Success? ==> r.value.gate == CoreSemaphore.Gate(concurrentExecution.Floor, 0, []) && r.value.detector == detector
  {
    match CoreSemaphore.New<nat>(concurrentExecution)
    case Failure(e) => Failure(e)
    case Success(g) => Success(Lock(g, detector, raiseOnReentrant.GetOr(false), 0))
  }

  /** The counter equals the calls that passed Acquire and have not settled:
      those running in the gate plus those waiting in it. */
  predicate Inv(l: Lock) {
    && CoreSemaphore.Valid(l.gate)
    && l.runningWithoutReenter == l.gate.running + |l.gate.queue|
  }

  /** How a call entered the lock. */
  datatype Entry = RaiseReentrant | EnterReentrant | RefuseThrottle | Acquiring(startsNow: bool)

  predicate IsReentrant(l: Lock, ctx: seq<nat>) {
    ReentrantDetector.Run(l.detector, ctx).0
  }

  /** A call enters: classification by reentrancy first, then by the throttle,
      then submission to the gate. Returns the new lock, the entry and the
      events emitted so far. */
  function EnterLock(l: Lock, callId: nat, ctx: seq<nat>, throttle: bool): (r: (Lock, Entry, seq<EventType>))
    ensures r.1 == RaiseReentrant <==> IsReentrant(l, ctx) && l.raiseOnReentrant
    ensures r.1 == EnterReentrant <==> IsReentrant(l, ctx) && !l.raiseOnReentrant
    ensures r.1 == RefuseThrottle <==> !IsReentrant(l, ctx) && throttle && l.runningWithoutReenter >= Capacity(l)
    ensures IsReentrant(l, ctx) ==> r.0 == l && r.1 != RefuseThrottle
    ensures r.1 == RaiseReentrant ==> r.2 == []
    ensures r.1 == RefuseThrottle ==> r.0 == l && r.2 == [Throttle]
    ensures Acquire in r.2 <==> r.1.Acquiring?
    ensures r.1.Acquiring? ==>
              && r.0.runningWithoutReenter == l.runningWithoutReenter + 1
              && (r.1.startsNow <==> l.gate.running < l.gate.capacity)
              && r.0.gate == CoreSemaphore.Submit(l.gate, callId).0
              && r.0.detector == l.detector && r.0.raiseOnReentrant == l.raiseOnReentrant
    ensures Inv(l) ==> Inv(r.0)
  {
    var (reentrant, _) := ReentrantDetector.Run(l.detector, ctx);
    if reentrant then
      if l.raiseOnReentrant then (l, RaiseReentrant, [])
      else (l, EnterReentrant, [Enter])
    else if throttle && l.runningWithoutReenter >= Capacity(l) then
      (l, RefuseThrottle, [Throttle])
    else
      var (g, now) := CoreSemaphore.Submit(l.gate, callId);
      (l.(gate := g, runningWithoutReenter := l.runningWithoutReenter + 1), Acquiring(now), [Acquire])
  }

  /** The gate admits a call: cancelled calls skip the callback silently. */
  function AdmissionEvents(canceled: bool): seq<EventType> {
    if canceled then [] else [Acquired]
  }

  /** An admitted call's gate task settles: the slot is handed to the next
      waiter and the counter is restored. */
  function Settle(l: Lock): (r: (Lock, Option<nat>))
    requires l.gate.running > 0
    ensures r.0.runningWithoutReenter == l.runningWithoutReenter - 1
    ensures (r.0.gate, r.1) == CoreSemaphore.Complete(l.gate)
    ensures r.0.detector == l.detector && r.0.raiseOnReentrant == l.raiseOnReentrant
    ensures Inv(l) ==> Inv(r.0)
  {
    var (g, next) := CoreSemaphore.Complete(l.gate);
    (l.(gate := g, runningWithoutReenter := l.runningWithoutReenter - 1), next)
  }

  /** The five ways a call can go. */
  datatype CallPath = RaisedReentrant | ToleratedReentrant | Throttled | AdmittedCanceled | AdmittedRan

  function PathOf(e: Entry, canceledAtAdmission: bool): CallPath {
    match e
    case RaiseReentrant => RaisedReentrant
    case EnterReentrant => ToleratedReentrant
    case RefuseThrottle => Throttled
    case Acquiring(_) => if canceledAtAdmission then AdmittedCanceled else AdmittedRan
  }

  function EntryEvents(p: CallPath): seq<EventType> {
    match p
    case RaisedReentrant => []
    case ToleratedReentrant => [Enter]
    case Throttled => [Throttle]
    case _ => [Acquire]
  }

  function AdmittedEvents(p: CallPath): seq<EventType> {
    match p
    case AdmittedCanceled => AdmissionEvents(true)
    case AdmittedRan => AdmissionEvents(false)
    case _ => []
  }

  /** Events emitted once the callback settles, whether it succeeded or failed. */
  function SettledEvents(p: CallPath): seq<EventType> {
    match p
    case ToleratedReentrant => [Exit, Finish]
    case AdmittedRan => [Release, Finish]
    case _ => []
  }

  /** The whole event trace of one call: entry, admission, settlement. */
  function Trace(p: CallPath): seq<EventType> {
    EntryEvents(p) + AdmittedEvents(p) + SettledEvents(p)
  }

  /** Each path emits a fixed trace. */
  lemma TraceOfEachPath(p: CallPath)
    ensures p == RaisedReentrant ==> Trace(p) == []
    ensures p == ToleratedReentrant ==> Trace(p) == [Enter, Exit, Finish]
    ensures p == Throttled ==> Trace(p) == [Throttle]
    ensures p == AdmittedCanceled ==> Trace(p) == [Acquire]
    ensures p == AdmittedRan ==> Trace(p) == [Acquire, Acquired, Release, Finish]
  {
  }

  /** The trace of a call agrees with the entry decision made for it: Acquire
      exactly when the call went to the gate, Acquired, Release and Finish from
      the gate only when it was not cancelled, and never Acquire on a refused
      or reentrant call. */
  lemma TraceMatchesEntry(l: Lock, callId: nat, ctx: seq<nat>, throttle: bool, canceled: bool)
    ensures var (_, e, evs) := EnterLock(l, callId, ctx, throttle);
            var p := PathOf(e, canceled);
            && Trace(p)[..|evs|] == evs
            && (Acquire in Trace(p) <==> !IsReentrant(l, ctx) && !(throttle && l.runningWithoutReenter >= Capacity(l)))
            && (Acquired in Trace(p) <==> e.Acquiring? && !canceled)
            && (Release in Trace(p) <==> Acquired in Trace(p))
  {
    var (_, e, evs) := EnterLock(l, callId, ctx, throttle);
    TraceOfEachPath(PathOf(e, canceled));
  }

  /** What the lock's promise settles with: its own errors for the raising and
      throttled paths, success for a cancelled call, and the callback's outcome
      otherwise. */
  function Outcome(p: CallPath, cb: Result<(), Failure>): (r: Result<(), Failure>)
    ensures p == RaisedReentrant ==> r == Failure(Sync(NewReentrantExecutionError(None)))
    ensures p == Throttled ==> r == Failure(Sync(NewThrottleError(None)))
    ensures p == AdmittedCanceled ==> r.Success?
    ensures p == ToleratedReentrant || p == AdmittedRan ==> r == cb
  {
    match p
    case RaisedReentrant => Failure(Sync(NewReentrantExecutionError(None)))
    case Throttled => Failure(Sync(NewThrottleError(None)))
    case AdmittedCanceled => Success(())
    case _ => cb
  }

  /** Under the invariant the throttle refuses exactly when the gate has no
      free slot. */
  lemma ThrottleRefusesIffGateFull(l: Lock)
    requires Inv(l)
    ensures l.runningWithoutReenter >= Capacity(l) <==> l.gate.running == l.gate.capacity
  {
  }

  /** A throttled call that is accepted never waits in the queue. */
  lemma ThrottledCallNeverQueues(l: Lock, callId: nat, ctx: seq<nat>)
    requires Inv(l)
    requires EnterLock(l, callId, ctx, true).1.Acquiring?
    ensures EnterLock(l, callId, ctx, true).1.startsNow
  {
    ThrottleRefusesIffGateFull(l);
  }

  /** A call that starts at once and settles before anything else happens
      leaves the counter and the gate as they were. */
  lemma AcquireThenSettleRestores(l: Lock, callId: nat, ctx: seq<nat>, throttle: bool)
    requires Inv(l)
    requires EnterLock(l, callId, ctx, throttle).1 == Acquiring(true)
    ensures EnterLock(l, callId, ctx, throttle).0.gate.running > 0
    ensures var l1 := EnterLock(l, callId, ctx, throttle).0;
            Settle(l1).0 == l && Settle(l1).1 == None
  {
  }
}

=== FILE: strings.dfy ===
/** Decimal rendering of integers, as JavaScript template literals render
    integral numbers, together with the parser that inverts it. */
module Strings {

  predicate IsDigit(c: char) {
    '0' <= c <= '9'
  }

  predicate AllDigits(s: string) {
    forall i :: 0 <= i < |s| ==> IsDigit(s[i])
  }

  function DigitChar(d: nat): (c: char)
    requires d < 10
    ensures IsDigit(c)
    ensures DigitValue(c) == d
  {
    ('0' as int + d) as char
  }

  function DigitValue(c: char): (d: nat)
    requires IsDigit(c)
    ensures d < 10
  {
    c as int - '0' as int
  }

  /** The decimal digits of `n`, most significant first, without leading zeros. */
  function NatToString(n: nat): (s: string)
    ensures |s| > 0
    ensures AllDigits(s)
    ensures |s| > 1 ==> s[0] != '0'
  {
    if n < 10 then [DigitChar(n)] else NatToString(n / 10) + [DigitChar(n % 10)]
  }

  /** Decimal rendering of any integer: a leading minus sign for negatives. */
  function IntToString(i: int): (s: string)
    ensures |s| > 0
    ensures i < 0 <==> s[0] == '-'
    ensures forall k :: 0 < k < |s| ==> IsDigit(s[k])
  {
    if i < 0 then "-" + NatToString(-i) else NatToString(i)
  }

  /** Reads a string of decimal digits back as a number. */
  function ParseNat(s: string): nat
    requires AllDigits(s)
  {
    if |s| == 0 then 0 else ParseNat(s[..|s| - 1]) * 10 + DigitValue(s[|s| - 1])
  }

  /** Rendering then parsing gives back the number. */
  lemma {:induction false} ParseNatToString(n: nat)
    ensures ParseNat(NatToString(n)) == n
  {
    if n >= 10 {
      var prefix := NatToString(n / 10);
      var s := prefix + [DigitChar(n % 10)];
      assert s[..|s| - 1] == prefix;
      ParseNatToString(n / 10);
    }
  }

  /** Distinct numbers render to distinct strings. */
  lemma NatToStringInjective(a: nat, b: nat)
    requires NatToString(a) == NatToString(b)
    ensures a == b
  {
    ParseNatToString(a);
    ParseNatToString(b);
  }

  /** Rendered integers never contain a space. */
  lemma IntToStringHasNoSpace(i: int)
    ensures ' ' !in IntToString(i)
  {
    var s := IntToString(i);
    forall k | 0 <= k < |s| ensures s[k] != ' ' {
    }
  }

  /** Distinct integers render to distinct strings. */
  lemma IntToStringInjective(a: int, b: int)
    requires IntToString(a) == IntToString(b)
    ensures a == b
  {
    if a < 0 && b < 0 {
      assert NatToString(-a) == IntToString(a)[1..];
      assert NatToString(-b) == IntToString(b)[1..];
      NatToStringInjective(-a, -b);
    } else if a >= 0 && b >= 0 {
      NatToStringInjective(a, b);
    }
  }

  /** A string made of a space-free head, a space and a tail splits back into
      the same head and tail. */
  lemma SplitAtFirstSpace(x1: string, y1: string, x2: string, y2: string)
    requires ' ' !in x1 && ' ' !in x2
    requires x1 + " " + y1 == x2 + " " + y2
    ensures x1 == x2 && y1 == y2
  {
    var s := x1 + " " + y1;
    var t := x2 + " " + y2;
    assert s[|x1|] == ' ' && t[|x2|] == ' ';
    assert forall k :: 0 <= k < |x1| ==> s[k] == x1[k] != ' ';
    assert forall k :: 0 <= k < |x2| ==> t[k] == x2[k] != ' ';
    assert x1 == s[..|x1|] && x2 == t[..|x2|];
    assert y1 == s[|x1| + 1..] && y2 == t[|x2| + 1..];
  }
}

=== FILE: synchronizer.dfy ===
/** The synchronizer layer: identity and defaults, the statistics driven by
    emitted events, per-call parameters and context, error re-raising, and
    the throttle and timeout views. */
module Synchronizer {
  import opened Wrappers
  import opened Types
  import opened Errors
  import CoreSemaphore
  import Semaphore
  import ReentrantDetector

  datatype SynchronizerParams = SynchronizerParams(
    providerId: Option<string>,
    onEvent: Option<Listener>,
    maxConcurrentExecution: Option<real>,
    synchronizerId: Option<string>,
    raiseOnReentrant: Option<bool>)

  datatype Synchronizer = Synchronizer(
    params: SynchronizerParams,
    providerId: string,
    synchronizerId: string,
    lock: Semaphore.Lock,
    stats: Stats)

  /** Construction. Missing ids come from the generated-id oracle (a random UUID
      in the source); the capacity defaults to 1 and is validated by the lock,
      which rejects a fractional capacity as well as one below 1. */
  function New(params: SynchronizerParams, freshProviderId: string, freshSynchronizerId: string,
               detector: ReentrantDetector.Detector): (r: Result<Synchronizer, SyncError>)
    ensures r.Success? <==> CoreSemaphore.ValidCapacity(params.maxConcurrentExecution.GetOr(1.0))
    ensures r.Failure? ==> r == Failure(CoreSemaphore.New<nat>(params.maxConcurrentExecution.GetOr(1.0)).error)
    ensures r.Success? ==>
              && r.value.stats.maxConcurrentExecution as real == params.maxConcurrentExecution.GetOr(1.0)
              && r.value.stats.numberOfTasks == 0 && r.value.stats.numberOfRunningTasks == 0
              && Semaphore.Capacity(r.value.lock) == r.value.stats.maxConcurrentExecution
              && Semaphore.Inv(r.value.lock)
              && r.value.lock.raiseOnReentrant == (params.raiseOnReentrant == Some(true))
              && r.value.providerId == params.providerId.GetOr(freshProviderId)
              && r.value.synchronizerId == params.synchronizerId.GetOr(freshSynchronizerId)
              && r.value.params == params
  {
    var maxConcurrentExecution := params.maxConcurrentExecution.GetOr(1.0);
    match Semaphore.New(maxConcurrentExecution, detector, params.raiseOnReentrant)
    case Failure(e) => Failure(e)
    case Success(lock) =>
      Success(Synchronizer(params, params.providerId.GetOr(freshProviderId),
                           params.synchronizerId.GetOr(freshSynchronizerId), lock,
                           Stats(maxConcurrentExecution.Floor, 0, 0)))
  }

  // ---------------------------------------------------------------- statistics

  /** The stats update table of the event handler. */
  function ApplyEvent(s: Stats, t: EventType): (r: Stats)
    ensures r.maxConcurrentExecution == s.maxConcurrentExecution
    ensures r.numberOfTasks == s.numberOfTasks + TasksDelta(t)
    ensures r.numberOfRunningTasks == s.numberOfRunningTasks + RunningDelta(t)
  {
    match t
    case Acquire => s.(numberOfTasks := s.numberOfTasks + 1)
    case Acquired => s.(numberOfRunningTasks := s.numberOfRunningTasks + 1)
    case Release => s.(numberOfRunningTasks := s.numberOfRunningTasks - 1, numberOfTasks := s.numberOfTasks - 1)
    case Timeout => s.(numberOfTasks := s.numberOfTasks - 1)
    case _ => s
  }

  /** How much one event moves the task count. */
  function TasksDelta(t: EventType): int {
    if t == Acquire then 1 else if t == Release || t == Timeout then -1 else 0
  }

  /** How much one event moves the running count. */
  function RunningDelta(t: EventType): int {
    if t == Acquired then 1 else if t == Release then -1 else 0
  }

  function ApplyAll(s: Stats, ts: seq<EventType>): Stats
    decreases |ts|
  {
    if |ts| == 0 then s else ApplyAll(ApplyEvent(s, ts[0]), ts[1..])
  }

  function SumTasks(ts: seq<EventType>): int
    decreases |ts|
  {
    if |ts| == 0 then 0 else TasksDelta(ts[0]) + SumTasks(ts[1..])
  }

  function SumRunning(ts: seq<EventType>): int
    decreases |ts|
  {
    if |ts| == 0 then 0 else RunningDelta(ts[0]) + SumRunning(ts[1..])
  }

  /** Applying a trace adds up the deltas of its events. */
  lemma {:induction false} ApplyAllAddsDeltas(s: Stats, ts: seq<EventType>)
    ensures ApplyAll(s, ts) == s.(numberOfTasks := s.numberOfTasks + SumTasks(ts),
                                  numberOfRunningTasks := s.numberOfRunningTasks + SumRunning(ts))
    decreases |ts|
  {
    if |ts| > 0 {
      ApplyAllAddsDeltas(ApplyEvent(s, ts[0]), ts[1..]);
    }
  }

  /** The sums depend only on how often each event kind occurs. */
  lemma {:induction false} SumsByCount(ts: seq<EventType>)
    ensures var m := multiset(ts);
            && SumTasks(ts) == m[Acquire] as int - m[Release] as int - m[Timeout] as int
            && SumRunning(ts) == m[Acquired] as int - m[Release] as int
    decreases |ts|
  {
    if |ts| > 0 {
      SumsByCount(ts[1..]);
      assert ts == [ts[0]] + ts[1..];
      assert multiset(ts) == multiset([ts[0]]) + multiset(ts[1..]);
    }
  }

  /** Reordering events never changes their net effect. */
  lemma ReorderKeepsEffect(s: Stats, a: seq<EventType>, b: seq<EventType>)
    requires multiset(a) == multiset(b)
    ensures ApplyAll(s, a) == ApplyAll(s, b)
  {
    SumsByCount(a);
    SumsByCount(b);
    ApplyAllAddsDeltas(s, a);
    ApplyAllAddsDeltas(s, b);
  }

  /** How a call's events came to an end: one of the lock's paths, or a
      timeout-view call whose deadline fired while it waited in the gate. */
  datatype CallEnd = Ended(path: Semaphore.CallPath) | EndedByTimeout

  /** Every way a call can finish except a cancellation at admission that no
      timeout accounts for: only the timeout view installs a probe, and a
      Timeout event emitted at the deadline accompanies each of its
      cancellations. */
  predicate Accounted(c: CallEnd) {
    !(c.Ended? && c.path == Semaphore.AdmittedCanceled)
  }

  function CallTrace(c: CallEnd): seq<EventType> {
    match c
    case Ended(p) => Semaphore.Trace(p)
    case EndedByTimeout => Semaphore.Trace(Semaphore.AdmittedCanceled) + [Timeout]
  }

  /** Every complete per-call trace has zero net effect on both counters. */
  lemma CallTraceIsBalanced(c: CallEnd)
    requires Accounted(c)
    ensures SumTasks(CallTrace(c)) == 0 && SumRunning(CallTrace(c)) == 0
  {
    match c
    case EndedByTimeout => TimedOutTraceBalanced();
    case Ended(p) =>
      match p
      case RaisedReentrant => Semaphore.TraceOfEachPath(p);
      case ToleratedReentrant => ToleratedTraceBalanced();
      case Throttled => ThrottledTraceBalanced();
      case AdmittedRan => RanTraceBalanced();
  }

  lemma TimedOutTraceBalanced()
    ensures SumTasks(CallTrace(EndedByTimeout)) == 0 && SumRunning(CallTrace(EndedByTimeout)) == 0
  {
    Semaphore.TraceOfEachPath(Semaphore.AdmittedCanceled);
    assert CallTrace(EndedByTimeout) == [Acquire, Timeout];
    PairBalanced(Acquire, Timeout);
  }

  lemma ToleratedTraceBalanced()
    ensures var t := Semaphore.Trace(Semaphore.ToleratedReentrant);
            SumTasks(t) == 0 && SumRunning(t) == 0
  {
    Semaphore.TraceOfEachPath(Semaphore.ToleratedReentrant);
    TripleBalanced(Enter, Exit, Finish);
  }

  lemma ThrottledTraceBalanced()
    ensures var t := Semaphore.Trace(Semaphore.Throttled);
            SumTasks(t) == 0 && SumRunning(t) == 0
  {
    Semaphore.TraceOfEachPath(Semaphore.Throttled);
    SumsCons(Throttle, []);
  }

  lemma RanTraceBalanced()
    ensures var t := Semaphore.Trace(Semaphore.AdmittedRan);
            SumTasks(t) == 0 && SumRunning(t) == 0
  {
    Semaphore.TraceOfEachPath(Semaphore.AdmittedRan);
    SumsCons(Acquire, [Acquired, Release, Finish]);
    TripleBalanced(Acquired, Release, Finish);
  }

  /** The sums of a two-event trace. */
  lemma PairBalanced(x: EventType, y: EventType)
    ensures SumTasks([x, y]) == TasksDelta(x) + TasksDelta(y)
    ensures SumRunning([x, y]) == RunningDelta(x) + RunningDelta(y)
  {
    SumsCons(x, [y]);
    SumsCons(y, []);
    assert [x] + [y] == [x, y];
  }

  /** The sums of a three-event trace. */
  lemma TripleBalanced(x: EventType, y: EventType, z: EventType)
    ensures SumTasks([x, y, z]) == TasksDelta(x) + TasksDelta(y) + TasksDelta(z)
    ensures SumRunning([x, y, z]) == RunningDelta(x) + RunningDelta(y) + RunningDelta(z)
  {
    SumsCons(x, [y, z]);
    PairBalanced(y, z);
    assert [x] + [y, z] == [x, y, z];
  }

  lemma SumsCons(x: EventType, ts: seq<EventType>)
    ensures SumTasks([x] + ts) == TasksDelta(x) + SumTasks(ts)
    ensures SumRunning([x] + ts) == RunningDelta(x) + SumRunning(ts)
  {
    assert ([x] + ts)[1..] == ts;
  }

  /** A cancellation at admission on its own leaves one task counted: the
      trace is a lone Acquire. */
  lemma UnaccountedCancelLeavesOneTask(s: Stats)
    ensures ApplyAll(s, CallTrace(Ended(Semaphore.AdmittedCanceled))) == s.(numberOfTasks := s.numberOfTasks + 1)
  {
    var t := CallTrace(Ended(Semaphore.AdmittedCanceled));
    Semaphore.TraceOfEachPath(Semaphore.AdmittedCanceled);
    SumsByCount(t);
    ApplyAllAddsDeltas(s, t);
  }

  function Flatten(cs: seq<CallEnd>): seq<EventType>
    decreases |cs|
  {
    if |cs| == 0 then [] else CallTrace(cs[0]) + Flatten(cs[1..])
  }

  lemma {:induction false} SumsDistribute(a: seq<EventType>, b: seq<EventType>)
    ensures SumTasks(a + b) == SumTasks(a) + SumTasks(b)
    ensures SumRunning(a + b) == SumRunning(a) + SumRunning(b)
    decreases |a|
  {
    if |a| == 0 {
      assert a + b == b;
    } else {
      assert (a + b)[0] == a[0];
      assert (a + b)[1..] == a[1..] + b;
      SumsDistribute(a[1..], b);
    }
  }

  lemma {:induction false} FlattenIsBalanced(cs: seq<CallEnd>)
    requires forall i :: 0 <= i < |cs| ==> Accounted(cs[i])
    ensures SumTasks(Flatten(cs)) == 0 && SumRunning(Flatten(cs)) == 0
    decreases |cs|
  {
    if |cs| > 0 {
      CallTraceIsBalanced(cs[0]);
      FlattenIsBalanced(cs[1..]);
      SumsDistribute(CallTrace(cs[0]), Flatten(cs[1..]));
    }
  }

  /** Drain theorem: whatever order the events of a finished workload were
      emitted in, they leave the stats as they found them. */
  lemma DrainRestoresStats(s: Stats, cs: seq<CallEnd>, emitted: seq<EventType>)
    requires forall i :: 0 <= i < |cs| ==> Accounted(cs[i])
    requires multiset(emitted) == multiset(Flatten(cs))
    ensures ApplyAll(s, emitted) == s
  {
    ReorderKeepsEffect(s, emitted, Flatten(cs));
    FlattenIsBalanced(cs);
    ApplyAllAddsDeltas(s, Flatten(cs));
  }

  /** From a new synchronizer, both counters are back at 0 once drained. */
  lemma DrainedCountersAreZero(max: int, cs: seq<CallEnd>, emitted: seq<EventType>)
    requires forall i :: 0 <= i < |cs| ==> Accounted(cs[i])
    requires multiset(emitted) == multiset(Flatten(cs))
    ensures ApplyAll(Stats(max, 0, 0), emitted) == Stats(max, 0, 0)
  {
    DrainRestoresStats(Stats(max, 0, 0), cs, emitted);
  }

  /** Walking a trace from `tasks` and `running`, the counters satisfy
      `0 <= running <= tasks` after every event. */
  predicate OrderedSteps(tasks: int, running: int, ts: seq<EventType>)
    decreases |ts|
  {
    |ts| == 0 ||
    (var t1 := tasks + TasksDelta(ts[0]);
     var r1 := running + RunningDelta(ts[0]);
     0 <= r1 <= t1 && OrderedSteps(t1, r1, ts[1..]))
  }

  /** An ordered walk bounds every prefix's sums. */
  lemma {:induction false} OrderedStepsPrefix(tasks: int, running: int, ts: seq<EventType>, k: nat)
    requires 0 <= running <= tasks && OrderedSteps(tasks, running, ts) && k <= |ts|
    ensures 0 <= running + SumRunning(ts[..k]) <= tasks + SumTasks(ts[..k])
    decreases |ts|
  {
    if k > 0 {
      var t1 := tasks + TasksDelta(ts[0]);
      var r1 := running + RunningDelta(ts[0]);
      OrderedStepsPrefix(t1, r1, ts[1..], k - 1);
      assert ts[..k] == [ts[0]] + ts[1..][..k - 1];
      SumsCons(ts[0], ts[1..][..k - 1]);
    }
  }

  /** Each call's own trace walks in order from zero counters: Acquired never
      comes before Acquire, and Release and Timeout close an open task. */
  lemma CallTraceIsOrdered(c: CallEnd)
    ensures OrderedSteps(0, 0, CallTrace(c))
  {
    match c
    case EndedByTimeout =>
      Semaphore.TraceOfEachPath(Semaphore.AdmittedCanceled);
      assert CallTrace(c) == [Acquire, Timeout];
    case Ended(p) =>
      Semaphore.TraceOfEachPath(p);
  }

  /** Every prefix of a call's trace keeps `0 <= running <= tasks`. */
  lemma CallPrefixBounded(c: CallEnd, k: nat)
    requires k <= |CallTrace(c)|
    ensures 0 <= SumRunning(CallTrace(c)[..k]) <= SumTasks(CallTrace(c)[..k])
  {
    CallTraceIsOrdered(c);
    OrderedStepsPrefix(0, 0, CallTrace(c), k);
  }

  /** A workload part-way through: call i has emitted the first `ks[i]`
      events of its trace. */
  function PartialFlatten(cs: seq<CallEnd>, ks: seq<nat>): seq<EventType>
    requires |ks| == |cs|
    requires forall i :: 0 <= i < |cs| ==> ks[i] <= |CallTrace(cs[i])|
    decreases |cs|
  {
    if |cs| == 0 then [] else CallTrace(cs[0])[..ks[0]] + PartialFlatten(cs[1..], ks[1..])
  }

  lemma {:induction false} PartialFlattenBounded(cs: seq<CallEnd>, ks: seq<nat>)
    requires |ks| == |cs|
    requires forall i :: 0 <= i < |cs| ==> ks[i] <= |CallTrace(cs[i])|
    ensures 0 <= SumRunning(PartialFlatten(cs, ks)) <= SumTasks(PartialFlatten(cs, ks))
    decreases |cs|
  {
    if |cs| > 0 {
      CallPrefixBounded(cs[0], ks[0]);
      PartialFlattenBounded(cs[1..], ks[1..]);
      SumsDistribute(CallTrace(cs[0])[..ks[0]], PartialFlatten(cs[1..], ks[1..]));
    }
  }

  /** The stats invariant at every point of a run: whatever prefix of its
      trace each call has emitted, in whatever interleaving, the counters
      satisfy `0 <= numberOfRunningTasks <= numberOfTasks` when they started
      out doing so. */
  lemma LiveStatsBounded(s: Stats, cs: seq<CallEnd>, ks: seq<nat>, emitted: seq<EventType>)
    requires 0 <= s.numberOfRunningTasks <= s.numberOfTasks
    requires |ks| == |cs|
    requires forall i :: 0 <= i < |cs| ==> ks[i] <= |CallTrace(cs[i])|
    requires multiset(emitted) == multiset(PartialFlatten(cs, ks))
    ensures 0 <= ApplyAll(s, emitted).numberOfRunningTasks <= ApplyAll(s, emitted).numberOfTasks
  {
    ReorderKeepsEffect(s, emitted, PartialFlatten(cs, ks));
    ApplyAllAddsDeltas(s, PartialFlatten(cs, ks));
    PartialFlattenBounded(cs, ks);
  }

  /** Emitting one event: update the stats, then hand listeners a copy taken
      after the update. */
  function Emit(s: Stats, t: EventType, context: Context): (r: (Stats, Event))
    ensures r.0 == ApplyEvent(s, t)
    ensures r.1 == Event(t, r.0, context)
  {
    var s1 := ApplyEvent(s, t);
    (s1, Event(t, s1, context))
  }

  function EmitAll(s: Stats, context: Context, ts: seq<EventType>): (r: (Stats, seq<Event>))
    decreases |ts|
  {
    if |ts| == 0 then (s, [])
    else
      var (s1, e) := Emit(s, ts[0], context);
      var (s2, es) := EmitAll(s1, context, ts[1..]);
      (s2, [e] + es)
  }

  /** Emitting a trace: one event per entry, in order, each with the call's
      context and the stats as they stand right after that event. */
  lemma {:induction false} EmitAllSnapshots(s: Stats, context: Context, ts: seq<EventType>)
    ensures EmitAll(s, context, ts).0 == ApplyAll(s, ts)
    ensures |EmitAll(s, context, ts).1| == |ts|
    ensures forall i :: 0 <= i < |ts| ==>
              EmitAll(s, context, ts).1[i] == Event(ts[i], ApplyAll(s, ts[..i + 1]), context)
    decreases |ts|
  {
    if |ts| > 0 {
      var s1 := ApplyEvent(s, ts[0]);
      EmitAllSnapshots(s1, context, ts[1..]);
      var es := EmitAll(s, context, ts).1;
      forall i | 0 <= i < |ts|
        ensures es[i] == Event(ts[i], ApplyAll(s, ts[..i + 1]), context)
      {
        if i > 0 {
          assert ts[..i + 1][1..] == ts[1..][..i];
        }
      }
    }
  }

  // ---------------------------------------------------------------- call parameters

  /** Call parameters: a bare callback, or the full record. The callback, and
      the cancellation probe, are opaque handles. */
  datatype SyncParams<C> =
    | Bare(cb: C)
    | Full(executionId: Option<string>, cb: C, isCanceled: Option<nat>, throttle: Option<bool>)

  /** Normalises parameters: a caller-supplied execution id is kept, otherwise
      the generated one is used. */
  function ToFullParam<C>(p: SyncParams<C>, generated: string): (r: SyncParams<C>)
    ensures r.Full? && r.executionId.Some? && r.cb == p.cb
    ensures p.Full? && p.executionId.Some? ==> r.executionId == p.executionId
    ensures p.Bare? || p.executionId.None? ==> r.executionId == Some(generated)
    ensures p.Full? ==> r.isCanceled == p.isCanceled && r.throttle == p.throttle
    ensures p.Bare? ==> r.isCanceled.None? && r.throttle.None?
  {
    match p
    case Bare(cb) => Full(Some(generated), cb, None, None)
    case Full(id, cb, isCanceled, throttle) => Full(Some(id.GetOr(generated)), cb, isCanceled, throttle)
  }

  /** Normalising twice changes nothing: the first generated id sticks. */
  lemma ToFullParamIdempotent<C>(p: SyncParams<C>, fresh1: string, fresh2: string)
    ensures ToFullParam(ToFullParam(p, fresh1), fresh2) == ToFullParam(p, fresh1)
  {
  }

  function ToContext(s: Synchronizer, executionId: string): (c: Context)
    ensures c.providerId == s.providerId && c.synchronizerId == s.synchronizerId
    ensures c.executionId == executionId
  {
    Context(s.providerId, s.synchronizerId, executionId)
  }

  /** Errors raised by the lock itself are re-raised with the call's context;
      anything else passes through unchanged. */
  function Reraise(e: Failure, context: Context): (r: Failure)
    ensures e.Sync? && e.err.cls == ReentrantExecutionClass ==> r == Sync(NewReentrantExecutionError(Some(context)))
    ensures e.Sync? && e.err.cls == ThrottleClass ==> r == Sync(NewThrottleError(Some(context)))
    ensures !(e.Sync? && e.err.cls in {ReentrantExecutionClass, ThrottleClass}) ==> r == e
    ensures r.Sync? && r.err.ContextOf() != Some(context) ==> r == e
  {
    if e.Sync? && e.err.cls == ReentrantExecutionClass then Sync(NewReentrantExecutionError(Some(context)))
    else if e.Sync? && e.err.cls == ThrottleClass then Sync(NewThrottleError(Some(context)))
    else e
  }

  // ---------------------------------------------------------------- one call

  /** How the caller's promise ends. A call cancelled at admission never
      settles: the synchronizer only settles from inside the callback. */
  datatype Settlement<V> = Resolved(value: V) | Rejected(failure: Failure) | Pending

  function FromResult<V>(r: Result<V, Failure>): Settlement<V> {
    match r
    case Success(v) => Resolved(v)
    case Failure(f) => Rejected(f)
  }

  datatype CallReport<V> = CallReport(
    context: Context,
    path: Semaphore.CallPath,
    events: seq<Event>,
    statsAfter: Stats,
    settlement: Settlement<V>)

  /** The lock path a call takes. */
  function PathOfCall<C>(s: Synchronizer, p: SyncParams<C>, generated: string, callId: nat, ctx: seq<nat>,
                         probeAnswer: bool): Semaphore.CallPath
  {
    var full := ToFullParam(p, generated);
    var entry := Semaphore.EnterLock(s.lock, callId, ctx, full.throttle == Some(true)).1;
    Semaphore.PathOf(entry, full.isCanceled.Some? && probeAnswer)
  }

  /** One call through the synchronizer over its whole lifetime. The scheduler
      supplies the reentrancy context, what the cancellation probe answers at
      admission (a call without a probe is never cancelled), and how the
      callback settles. */
  function Call<C, V>(s: Synchronizer, p: SyncParams<C>, generated: string, callId: nat, ctx: seq<nat>,
                      probeAnswer: bool, cb: Result<V, Failure>): (r: CallReport<V>)
    ensures r.context == ToContext(s, ToFullParam(p, generated).executionId.value)
    ensures r.path == PathOfCall(s, p, generated, callId, ctx, probeAnswer)
    ensures r.path == Semaphore.AdmittedCanceled ==> ToFullParam(p, generated).isCanceled.Some? && probeAnswer
    ensures r.path == Semaphore.RaisedReentrant ==> r.settlement == Rejected(Sync(NewReentrantExecutionError(Some(r.context))))
    ensures r.path == Semaphore.Throttled ==> r.settlement == Rejected(Sync(NewThrottleError(Some(r.context))))
    ensures r.path == Semaphore.AdmittedCanceled ==> r.settlement == Pending
    ensures r.path in {Semaphore.ToleratedReentrant, Semaphore.AdmittedRan} ==> r.settlement == FromResult(cb)
  {
    var full := ToFullParam(p, generated);
    var context := ToContext(s, full.executionId.value);
    var path := PathOfCall(s, p, generated, callId, ctx, probeAnswer);
    var (statsAfter, events) := EmitAll(s.stats, context, Semaphore.Trace(path));
    var lockOutcome := Semaphore.Outcome(path, Success(()));
    var settlement :=
      match path
      case RaisedReentrant => Rejected(Reraise(lockOutcome.error, context))
      case Throttled => Rejected(Reraise(lockOutcome.error, context))
      case AdmittedCanceled => Pending
      case _ => FromResult(cb);
    CallReport(context, path, events, statsAfter, settlement)
  }

  /** The events of one call: its path's trace, in order, each carrying the
      call's context and the stats right after it; every path except a bare
      cancellation leaves the stats as it found them. */
  lemma CallEvents<C, V>(s: Synchronizer, p: SyncParams<C>, generated: string, callId: nat, ctx: seq<nat>,
                         probeAnswer: bool, cb: Result<V, Failure>)
    ensures var r := Call(s, p, generated, callId, ctx, probeAnswer, cb);
            var trace := Semaphore.Trace(r.path);
            && |r.events| == |trace|
            && (forall i :: 0 <= i < |trace| ==>
                  r.events[i] == Event(trace[i], ApplyAll(s.stats, trace[..i + 1]), r.context))
            && (Accounted(Ended(r.path)) ==> r.statsAfter == s.stats)
            && (!Accounted(Ended(r.path)) ==> r.statsAfter == s.stats.(numberOfTasks := s.stats.numberOfTasks + 1))
  {
    var r := Call(s, p, generated, callId, ctx, probeAnswer, cb);
    var trace := Semaphore.Trace(r.path);
    EmitAllSnapshots(s.stats, r.context, trace);
    if Accounted(Ended(r.path)) {
      DrainRestoresStats(s.stats, [Ended(r.path)], trace);
    } else {
      UnaccountedCancelLeavesOneTask(s.stats);
    }
  }

  // ---------------------------------------------------------------- throttle view

  /** The throttle view forwards the parameters with the throttle forced on. */
  function ThrottleParams<C>(p: SyncParams<C>, generated: string): (r: SyncParams<C>)
    ensures r.Full? && r.throttle == Some(true)
    ensures r.cb == p.cb && r.executionId == ToFullParam(p, generated).executionId
    ensures r.isCanceled == ToFullParam(p, generated).isCanceled
  {
    var full := ToFullParam(p, generated);
    Full(full.executionId, full.cb, full.isCanceled, Some(true))
  }

  /** A call through the throttle view is refused exactly when it is not
      reentrant and the admitted non-reentrant calls already fill the
      capacity; it keeps the view's execution id. */
  lemma ThrottleViewCall<C, V>(s: Synchronizer, p: SyncParams<C>, fresh1: string, fresh2: string, callId: nat,
                               ctx: seq<nat>, probeAnswer: bool, cb: Result<V, Failure>)
    ensures var r := Call(s, ThrottleParams(p, fresh1), fresh2, callId, ctx, probeAnswer, cb);
            && r.context.executionId == ToFullParam(p, fresh1).executionId.value
            && (r.path == Semaphore.Throttled <==>
                  !Semaphore.IsReentrant(s.lock, ctx) && s.lock.runningWithoutReenter >= Semaphore.Capacity(s.lock))
  {
  }

  // ---------------------------------------------------------------- timeout view

  /** The timeout view's per-call state. */
  datatype TimeoutState = Waiting | Started | TimedOut

  /** The gate admits the call: the probe reports cancellation after a
      timeout; otherwise a waiting call starts and runs the callback. */
  function OnAdmission(st: TimeoutState): (r: (TimeoutState, bool, bool))
    ensures r.1 <==> st == TimedOut
    ensures r.2 <==> st == Waiting
    ensures r.0 == (if st == Waiting then Started else st)
  {
    if st == TimedOut then (st, true, false)
    else if st == Waiting then (Started, false, true)
    else (st, false, false)
  }

  /** The deadline fires: it only has an effect on a waiting call. */
  function OnDeadline(st: TimeoutState): (r: (TimeoutState, bool))
    ensures r.1 <==> st == Waiting
    ensures r.0 == (if st == Waiting then TimedOut else st)
  {
    if st == Waiting then (TimedOut, true) else (st, false)
  }

  datatype TimeoutStep = AdmissionStep | DeadlineStep

  /** Runs the steps; counts callback runs and timeout rejections. */
  function RunTimeout(st: TimeoutState, steps: seq<TimeoutStep>): (r: (TimeoutState, nat, nat))
    decreases |steps|
  {
    if |steps| == 0 then (st, 0, 0)
    else if steps[0] == AdmissionStep then
      var (st1, _, runs) := OnAdmission(st);
      var (st2, n, m) := RunTimeout(st1, steps[1..]);
      (st2, n + (if runs then 1 else 0), m)
    else
      var (st1, fires) := OnDeadline(st);
      var (st2, n, m) := RunTimeout(st1, steps[1..]);
      (st2, n, m + (if fires then 1 else 0))
  }

  /** The only transitions are waiting to started and waiting to timed out;
      started and timed out never change again. */
  lemma {:induction false} TimeoutTransitions(st: TimeoutState, steps: seq<TimeoutStep>)
    ensures var (fin, _, _) := RunTimeout(st, steps);
            st != Waiting ==> fin == st
    ensures var (_, runs, fired) := RunTimeout(st, steps);
            st != Waiting ==> runs == 0 && fired == 0
    decreases |steps|
  {
    if |steps| > 0 {
      TimeoutTransitions(if steps[0] == AdmissionStep then OnAdmission(st).0 else OnDeadline(st).0, steps[1..]);
    }
  }

  /** From waiting, whatever the order of steps: the callback runs at most once,
      the timeout fires at most once, never both; a started call never times
      out and a timed-out call never runs its callback. */
  lemma {:induction false} TimeoutExclusive(steps: seq<TimeoutStep>)
    ensures var (fin, runs, fired) := RunTimeout(Waiting, steps);
            && runs + fired <= 1
            && (fin == Started <==> runs == 1)
            && (fin == TimedOut <==> fired == 1)
    decreases |steps|
  {
    if |steps| > 0 {
      var st1 := if steps[0] == AdmissionStep then Started else TimedOut;
      TimeoutTransitions(st1, steps[1..]);
    }
  }

  /** One call through the timeout view, with the race handler emitting
      Timeout only for this call's own deadline. `deadlineFirst` says the
      deadline fired before the gate admitted the call, which matters only
      for a call that had to queue. The view forwards only the execution
      id, its own probe and callback: a caller's throttle flag and probe are
      dropped. */
  function TimeoutCall<C, V>(s: Synchronizer, p: SyncParams<C>, generated1: string, generated2: string, callId: nat,
                             ctx: seq<nat>, deadlineFirst: bool, cb: Result<V, Failure>): (r: CallReport<V>)
    ensures r.context == ToContext(s, ToFullParam(p, generated1).executionId.value)
    ensures r.path != Semaphore.Throttled
    ensures r.path == Semaphore.AdmittedCanceled <==>
              deadlineFirst && Semaphore.EnterLock(s.lock, callId, ctx, false).1 == Semaphore.Acquiring(false)
    ensures r.path == Semaphore.AdmittedCanceled ==>
              && r.settlement == Rejected(Sync(NewTimeoutError(Some(r.context))))
              && r.statsAfter == s.stats
              && |r.events| == 2 && r.events[0].eventType == Acquire && r.events[1].eventType == Timeout
              && r.events[1].stats == s.stats
    ensures r.path != Semaphore.AdmittedCanceled ==>
              r == Call(s, TimeoutForwarded(p, generated1), generated2, callId, ctx, false, cb)
    ensures r.statsAfter == s.stats
  {
    var forwarded := TimeoutForwarded(p, generated1);
    // a call that finds a free slot starts at once; only a queued call can
    // see its deadline fire before admission
    var queued := Semaphore.EnterLock(s.lock, callId, ctx, false).1 == Semaphore.Acquiring(false);
    var stAtAdmission := if deadlineFirst && queued then OnDeadline(Waiting).0 else Waiting;
    var canceled := OnAdmission(stAtAdmission).1;
    var inner := Call(s, forwarded, generated2, callId, ctx, canceled, cb);
    if inner.path == Semaphore.AdmittedCanceled then
      CallEvents(s, forwarded, generated2, callId, ctx, canceled, cb);
      Semaphore.TraceOfEachPath(inner.path);
      var (statsAfter, timeoutEvent) := Emit(inner.statsAfter, Timeout, inner.context);
      CallReport(inner.context, inner.path, inner.events + [timeoutEvent], statsAfter,
                 Rejected(Sync(NewTimeoutError(Some(inner.context)))))
    else
      CallEvents(s, forwarded, generated2, callId, ctx, canceled, cb);
      inner
  }

  /** Whether a settlement is a rejection with a timeout error, whoever raised it. */
  predicate RejectsWithTimeout<V>(st: Settlement<V>) {
    st.Rejected? && st.failure.Sync? && st.failure.err.cls == TimeoutClass
  }

  /** The timeout view as its race handler is written: a Timeout event is
      emitted for every timeout error that rejects the race, including one the
      callback raised itself (a nested timeout-view call that timed out, say).
      `TimeoutCall` emits it only when this call's own deadline fired. */
  function TimeoutCallAsWritten<C, V>(s: Synchronizer, p: SyncParams<C>, generated1: string, generated2: string,
                                      callId: nat, ctx: seq<nat>, deadlineFirst: bool, cb: Result<V, Failure>)
    : (r: CallReport<V>)
    ensures var fixed := TimeoutCall(s, p, generated1, generated2, callId, ctx, deadlineFirst, cb);
            if fixed.path != Semaphore.AdmittedCanceled && RejectsWithTimeout(fixed.settlement) then
              && r == fixed.(events := r.events, statsAfter := r.statsAfter)
              && r.statsAfter == s.stats.(numberOfTasks := s.stats.numberOfTasks - 1)
              && r.events == fixed.events + [Event(Timeout, r.statsAfter, r.context)]
            else r == fixed
  {
    var forwarded := TimeoutForwarded(p, generated1);
    var queued := Semaphore.EnterLock(s.lock, callId, ctx, false).1 == Semaphore.Acquiring(false);
    var stAtAdmission := if deadlineFirst && queued then OnDeadline(Waiting).0 else Waiting;
    var canceled := OnAdmission(stAtAdmission).1;
    var inner := Call(s, forwarded, generated2, callId, ctx, canceled, cb);
    CallEvents(s, forwarded, generated2, callId, ctx, canceled, cb);
    // the race settles with the deadline's rejection, or else as the
    // synchronizer's promise does
    var race: Settlement<V> :=
      if inner.path == Semaphore.AdmittedCanceled then Rejected(Sync(NewTimeoutError(Some(inner.context))))
      else inner.settlement;
    if RejectsWithTimeout(race) then
      var (statsAfter, timeoutEvent) := Emit(inner.statsAfter, Timeout, inner.context);
      CallReport(inner.context, inner.path, inner.events + [timeoutEvent], statsAfter, race)
    else
      inner
  }

  /** The discrepancy: a call that finds a free slot, whose callback rejects
      with a timeout error, is counted out twice, by Release and by Timeout,
      and leaves the task count one lower; the corrected view leaves it as it
      was. */
  lemma NestedTimeoutUndercounts<C, V>(s: Synchronizer, p: SyncParams<C>, generated1: string, generated2: string,
                                       callId: nat, ctx: seq<nat>, deadlineFirst: bool, inner: Option<Context>)
    requires !Semaphore.IsReentrant(s.lock, ctx) && s.lock.gate.running < s.lock.gate.capacity
    ensures var r := TimeoutCallAsWritten<C, V>(s, p, generated1, generated2, callId, ctx, deadlineFirst,
                                                 Failure(Sync(NewTimeoutError(inner))));
            && r.path == Semaphore.AdmittedRan
            && |r.events| == 5 && r.events[4].eventType == Timeout
            && r.statsAfter.numberOfTasks == s.stats.numberOfTasks - 1
            && (s.stats.numberOfRunningTasks == s.stats.numberOfTasks ==>
                  r.statsAfter.numberOfRunningTasks > r.statsAfter.numberOfTasks)
    ensures TimeoutCall<C, V>(s, p, generated1, generated2, callId, ctx, deadlineFirst,
                              Failure(Sync(NewTimeoutError(inner)))).statsAfter == s.stats
  {
    var cb: Result<V, Failure> := Failure(Sync(NewTimeoutError(inner)));
    var fixed := TimeoutCall(s, p, generated1, generated2, callId, ctx, deadlineFirst, cb);
    var forwarded := TimeoutForwarded(p, generated1);
    assert Semaphore.EnterLock(s.lock, callId, ctx, false).1 == Semaphore.Acquiring(true);
    assert fixed == Call(s, forwarded, generated2, callId, ctx, false, cb);
    Semaphore.TraceOfEachPath(Semaphore.AdmittedRan);
    CallEvents(s, forwarded, generated2, callId, ctx, false, cb);
  }

  /** What the timeout view hands to the synchronizer. */
  function TimeoutForwarded<C>(p: SyncParams<C>, generated: string): (r: SyncParams<C>)
    ensures r.Full? && r.executionId == ToFullParam(p, generated).executionId && r.cb == p.cb
    ensures r.isCanceled.Some? && r.throttle.None?
  {
    Full(ToFullParam(p, generated).executionId, p.cb, Some(0), None)
  }
}

=== FILE: synchronizer_provider.dfy ===
/** The registry that hands out synchronizers: one per string key (held
    weakly, so a collected one is recreated), one per object (memoised on the
    object's identity), each named after a sequentially allocated id.

    The generated-id oracle and the reentrancy detector a new synchronizer
    gets are parameters (`Oracle`). */
module SynchronizerProvider {
  import opened Wrappers
  import opened Types
  import opened Errors
  import opened Strings
  import CoreSemaphore
  import Synchronizer
  import ReentrantDetector
  import WeakCacheProvider
  import CachedProvider

  /** The provider-wide parameters every synchronizer it creates inherits. */
  datatype ProviderParams = ProviderParams(providerId: Option<string>, onEvent: Option<Listener>)

  /** The per-synchronizer parameters (all but the provider id). */
  datatype CreateParams = CreateParams(
    onEvent: Option<Listener>,
    maxConcurrentExecution: Option<real>,
    synchronizerId: Option<string>,
    raiseOnReentrant: Option<bool>)

  /** What the environment supplies to a new synchronizer: random UUIDs for
      missing ids, and the detector its lock will use. */
  datatype Oracle = Oracle(providerUuid: string, synchronizerUuid: string, detector: ReentrantDetector.Detector)

  /** A weakly held synchronizer, with the id it was named after. */
  datatype KeyEntry = KeyEntry(id: nat, sync: Synchronizer.Synchronizer, alive: bool)

  /** An object's identity and its constructor's name. */
  datatype ObjRef = ObjRef(ref: nat, className: string)

  datatype Provider = Provider(
    params: ProviderParams,
    nextFree: nat,
    keyToSynchronizer: map<string, KeyEntry>,
    objects: WeakCacheProvider.Cache<ObjRef, Synchronizer.Synchronizer>)

  function New(params: ProviderParams): (p: Provider)
    ensures p.nextFree == 0 && p.keyToSynchronizer == map[] && p.objects.entries == map[]
    ensures Inv(p)
  {
    Provider(params, 0, map[], WeakCacheProvider.New())
  }

  /** Every keyed synchronizer is named after its own key and an id already
      handed out. */
  predicate Inv(p: Provider) {
    forall k :: k in p.keyToSynchronizer ==>
      && p.keyToSynchronizer[k].sync.synchronizerId == KeyName(p.keyToSynchronizer[k].id, k)
      && p.keyToSynchronizer[k].id < p.nextFree
  }

  // ------------------------------------------------------------------ ids

  /** nextId(): the current id, and the provider with the counter advanced. */
  function NextId(p: Provider): (r: (Provider, nat))
    ensures r.1 == p.nextFree
    ensures r.0 == p.(nextFree := p.nextFree + 1)
  {
    (p.(nextFree := p.nextFree + 1), p.nextFree)
  }

  /** `n` successive nextId() calls. */
  function NextIds(p: Provider, n: nat): (r: (Provider, seq<nat>))
    ensures |r.1| == n
    decreases n
  {
    if n == 0 then (p, [])
    else
      var (p1, id) := NextId(p);
      var (p2, ids) := NextIds(p1, n - 1);
      (p2, [id] + ids)
  }

  /** Successive ids are p.nextFree, p.nextFree + 1, ...: strictly increasing,
      hence distinct. */
  lemma {:induction false} NextIdsCount(p: Provider, n: nat)
    ensures NextIds(p, n).0 == p.(nextFree := p.nextFree + n)
    ensures forall i :: 0 <= i < n ==> NextIds(p, n).1[i] == p.nextFree + i
    ensures forall i, j :: 0 <= i < j < n ==> NextIds(p, n).1[i] < NextIds(p, n).1[j]
    decreases n
  {
    if n > 0 {
      var p1 := NextId(p).0;
      NextIdsCount(p1, n - 1);
    }
  }

  // ------------------------------------------------------------------ names

  function KeyName(id: nat, key: string): string {
    "id:" + NatToString(id) + " key:" + key
  }

  function ObjName(id: nat, className: string): string {
    "id:" + NatToString(id) + " obj:" + className
  }

  lemma NatToStringHasNoSpace(n: nat)
    ensures ' ' !in "id:" + NatToString(n)
  {
    var s := "id:" + NatToString(n);
    forall k | 0 <= k < |s| ensures s[k] != ' ' {
      if k >= 3 {
        assert s[k] == NatToString(n)[k - 3];
      }
    }
  }

  /** A key name determines its id and its key. */
  lemma KeyNameInjective(id1: nat, k1: string, id2: nat, k2: string)
    requires KeyName(id1, k1) == KeyName(id2, k2)
    ensures id1 == id2 && k1 == k2
  {
    NatToStringHasNoSpace(id1);
    NatToStringHasNoSpace(id2);
    assert KeyName(id1, k1) == ("id:" + NatToString(id1)) + " " + ("key:" + k1);
    assert KeyName(id2, k2) == ("id:" + NatToString(id2)) + " " + ("key:" + k2);
    SplitAtFirstSpace("id:" + NatToString(id1), "key:" + k1, "id:" + NatToString(id2), "key:" + k2);
    assert NatToString(id1) == ("id:" + NatToString(id1))[3..];
    assert NatToString(id2) == ("id:" + NatToString(id2))[3..];
    assert k1 == ("key:" + k1)[4..];
    assert k2 == ("key:" + k2)[4..];
    NatToStringInjective(id1, id2);
  }

  // ------------------------------------------------------------------ listeners

  /** The defined listeners, in order. */
  function Defined(ls: seq<Option<Listener>>): (r: seq<Listener>)
    ensures |r| <= |ls|
    decreases |ls|
  {
    if |ls| == 0 then []
    else if ls[0].Some? then [ls[0].value] + Defined(ls[1..])
    else Defined(ls[1..])
  }

  /** mergeEventListeners: no listener when none is defined, otherwise one that
      calls every defined listener in order. */
  function MergeEventListeners(ls: seq<Option<Listener>>): (r: Option<Listener>)
    ensures r.None? <==> forall i :: 0 <= i < |ls| ==> ls[i].None?
    ensures r.Some? ==> r.value == Merged(Defined(ls)) && Calls(r.value) == CallsAll(Defined(ls))
  {
    DefinedEmptyIffNone(ls);
    if |Defined(ls)| == 0 then None else Some(Merged(Defined(ls)))
  }

  lemma {:induction false} DefinedEmptyIffNone(ls: seq<Option<Listener>>)
    ensures |Defined(ls)| == 0 <==> forall i :: 0 <= i < |ls| ==> ls[i].None?
    decreases |ls|
  {
    if |ls| > 0 {
      DefinedEmptyIffNone(ls[1..]);
      assert forall i :: 1 <= i < |ls| ==> ls[1..][i - 1] == ls[i];
    }
  }

  /** A listener is merged in exactly when it was passed in defined. */
  lemma {:induction false} DefinedMembership(ls: seq<Option<Listener>>, l: Listener)
    ensures l in Defined(ls) <==> Some(l) in ls
    decreases |ls|
  {
    if |ls| > 0 {
      DefinedMembership(ls[1..], l);
      assert ls == [ls[0]] + ls[1..];
    }
  }

  /** Merging the provider's and a synchronizer's listener calls the provider's
      callbacks first, then the synchronizer's. */
  lemma MergeTwo(a: Listener, b: Listener)
    ensures MergeEventListeners([Some(a), Some(b)]) == Some(Merged([a, b]))
    ensures Calls(Merged([a, b])) == Calls(a) + Calls(b)
  {
    var ls := [Some(a), Some(b)];
    assert ls[1..] == [Some(b)] && [Some(b)][1..] == [];
    assert Defined([Some(b)]) == [b];
    assert Defined(ls) == [a] + [b] == [a, b];
    assert MergeEventListeners(ls) == Some(Merged(Defined(ls)));
    assert [a, b][1..] == [b] && [b][1..] == [];
    assert CallsAll([b]) == Calls(b) + CallsAll([]);
    assert CallsAll([a, b]) == Calls(a) + CallsAll([b]);
  }

  // ------------------------------------------------------------------ creation

  /** The parameters a new synchronizer gets: the provider's, overridden by the
      per-call ones, with the two event listeners merged. */
  function EffectiveParams(p: Provider, cp: CreateParams): (r: Synchronizer.SynchronizerParams)
    ensures r.providerId == p.params.providerId
    ensures r.onEvent == MergeEventListeners([p.params.onEvent, cp.onEvent])
    ensures r.maxConcurrentExecution == cp.maxConcurrentExecution
    ensures r.synchronizerId == cp.synchronizerId && r.raiseOnReentrant == cp.raiseOnReentrant
  {
    Synchronizer.SynchronizerParams(p.params.providerId, MergeEventListeners([p.params.onEvent, cp.onEvent]),
                                    cp.maxConcurrentExecution, cp.synchronizerId, cp.raiseOnReentrant)
  }

  /** createSynchronizer(params): fails, as the constructor does, on a capacity
      that is fractional or below 1. */
  function CreateSynchronizer(p: Provider, cp: CreateParams, o: Oracle): (r: Result<Synchronizer.Synchronizer, SyncError>)
    ensures r.Success? <==> CoreSemaphore.ValidCapacity(cp.maxConcurrentExecution.GetOr(1.0))
    ensures r.Failure? ==> r.error == CoreSemaphore.New<nat>(cp.maxConcurrentExecution.GetOr(1.0)).error
    ensures r.Success? ==>
              && r.value.params == EffectiveParams(p, cp)
              && r.value.providerId == p.params.providerId.GetOr(o.providerUuid)
              && r.value.synchronizerId == cp.synchronizerId.GetOr(o.synchronizerUuid)
              && r.value.stats.maxConcurrentExecution as real == cp.maxConcurrentExecution.GetOr(1.0)
              && r.value.stats.numberOfTasks == 0 && r.value.stats.numberOfRunningTasks == 0
  {
    Synchronizer.New(EffectiveParams(p, cp), o.providerUuid, o.synchronizerUuid, o.detector)
  }

  // ------------------------------------------------------------------ forKey

  predicate LiveKey(p: Provider, key: string) {
    key in p.keyToSynchronizer && p.keyToSynchronizer[key].alive
  }

  /** forKey(key, maxConcurrentExecution?): the live synchronizer for the key,
      or else a new one named after the next id and the key. A collected entry
      is removed first; a failed creation still consumes the id. */
  function ForKey(p: Provider, key: string, maxConcurrentExecution: Option<real>, o: Oracle)
    : (r: (Provider, Result<Synchronizer.Synchronizer, SyncError>))
    ensures LiveKey(p, key) ==> r == (p, Success(p.keyToSynchronizer[key].sync))
    ensures !LiveKey(p, key) ==>
              && r.0.nextFree == p.nextFree + 1
              && r.0.params == p.params && r.0.objects == p.objects
              && (r.1.Success? <==> CoreSemaphore.ValidCapacity(maxConcurrentExecution.GetOr(1.0)))
              && (r.1.Success? ==>
                    && r.1.value.synchronizerId == KeyName(p.nextFree, key)
                    && r.1.value.stats.maxConcurrentExecution as real == maxConcurrentExecution.GetOr(1.0)
                    && r.0.keyToSynchronizer == p.keyToSynchronizer[key := KeyEntry(p.nextFree, r.1.value, true)])
              && (r.1.Failure? ==>
                    && r.1.error.cls == InvalidClass
                    && r.0.keyToSynchronizer == p.keyToSynchronizer - {key})
    ensures Inv(p) ==> Inv(r.0)
  {
    if LiveKey(p, key) then (p, Success(p.keyToSynchronizer[key].sync))
    else
      var p0 := p.(keyToSynchronizer := p.keyToSynchronizer - {key});
      var (p1, id) := NextId(p0);
      var created := CreateSynchronizer(p1, CreateParams(None, maxConcurrentExecution, Some(KeyName(id, key)), None), o);
      if created.Failure? then (p1, created)
      else (p1.(keyToSynchronizer := p1.keyToSynchronizer[key := KeyEntry(id, created.value, true)]), created)
  }

  /** Environment step: the synchronizer held for `key` is collected. */
  function CollectKey(p: Provider, key: string): (r: Provider)
    ensures !LiveKey(r, key)
    ensures forall k :: k != key ==> LiveKey(r, k) == LiveKey(p, k)
    ensures Inv(p) ==> Inv(r)
  {
    if key in p.keyToSynchronizer
    then p.(keyToSynchronizer := p.keyToSynchronizer[key := p.keyToSynchronizer[key].(alive := false)])
    else p
  }

  /** While its entry is alive, a key keeps its synchronizer: a repeat forKey,
      whatever capacity it asks for, returns the same one and changes nothing. */
  lemma ForKeyRepeat(p: Provider, key: string, m1: Option<real>, m2: Option<real>, o1: Oracle, o2: Oracle)
    requires ForKey(p, key, m1, o1).1.Success?
    ensures var (p1, s1) := ForKey(p, key, m1, o1);
            ForKey(p1, key, m2, o2) == (p1, s1)
  {
  }

  /** Different keys get different synchronizers. */
  lemma DistinctKeysDistinctSynchronizers(p: Provider, k1: string, k2: string, m1: Option<real>, m2: Option<real>,
                                          o1: Oracle, o2: Oracle)
    requires Inv(p) && k1 != k2
    requires ForKey(p, k1, m1, o1).1.Success?
    requires ForKey(ForKey(p, k1, m1, o1).0, k2, m2, o2).1.Success?
    ensures var (p1, s1) := ForKey(p, k1, m1, o1);
            s1.value != ForKey(p1, k2, m2, o2).1.value
  {
    var (p1, s1) := ForKey(p, k1, m1, o1);
    var (p2, s2) := ForKey(p1, k2, m2, o2);
    var id1 :| s1.value.synchronizerId == KeyName(id1, k1);
    var id2 :| s2.value.synchronizerId == KeyName(id2, k2);
    if s1.value == s2.value {
      KeyNameInjective(id1, k1, id2, k2);
    }
  }

  /** A key whose synchronizer was collected gets a new one, named after the
      next id, which is distinct from the collected one. */
  lemma CollectedKeyIsRecreated(p: Provider, key: string, m: Option<real>, o: Oracle)
    requires Inv(p) && LiveKey(p, key) && CoreSemaphore.ValidCapacity(m.GetOr(1.0))
    ensures var old_ := p.keyToSynchronizer[key].sync;
            var (p1, s) := ForKey(CollectKey(p, key), key, m, o);
            && s.Success? && s.value != old_
            && p1.nextFree == p.nextFree + 1
            && LiveKey(p1, key)
  {
    var e := p.keyToSynchronizer[key];
    var (p1, s) := ForKey(CollectKey(p, key), key, m, o);
    if s.value == e.sync {
      KeyNameInjective(e.id, key, p.nextFree, key);
    }
  }

  // ------------------------------------------------------------------ forObject

  /** Synchronizers are objects, always truthy. */
  predicate Truthy(s: Synchronizer.Synchronizer) {
    true
  }

  /** forObject(obj, maxConcurrentExecution?): the synchronizer memoised for
      the object, or else a new one named after the next id and the object's
      class. A failed creation consumes the id and memoises nothing. */
  function ForObject(p: Provider, obj: ObjRef, maxConcurrentExecution: Option<real>, o: Oracle)
    : (r: (Provider, Result<Synchronizer.Synchronizer, SyncError>))
    ensures obj in p.objects.entries ==> r == (p, Success(p.objects.entries[obj]))
    ensures obj !in p.objects.entries ==>
              && r.0.nextFree == p.nextFree + 1
              && r.0.keyToSynchronizer == p.keyToSynchronizer
              && (r.1.Success? <==> CoreSemaphore.ValidCapacity(maxConcurrentExecution.GetOr(1.0)))
              && (r.1.Success? ==>
                    && r.1.value.synchronizerId == ObjName(p.nextFree, obj.className)
                    && r.0.objects.entries == p.objects.entries[obj := r.1.value])
              && (r.1.Failure? ==> r.0.objects == p.objects)
    ensures Inv(p) ==> Inv(r.0)
  {
    var hit := WeakCacheProvider.Lookup(p.objects, obj, Truthy);
    if hit.Some? then (p, Success(hit.value))
    else
      var (p1, id) := NextId(p);
      var created := CreateSynchronizer(p1, CreateParams(None, maxConcurrentExecution, Some(ObjName(id, obj.className)), None), o);
      if created.Failure? then (p1, created)
      else (p1.(objects := WeakCacheProvider.Get(p1.objects, obj, created.value, Truthy).0), created)
  }

  /** A repeat forObject on the same object, whatever capacity it asks for,
      returns the memoised synchronizer and changes nothing. */
  lemma ForObjectRepeat(p: Provider, obj: ObjRef, m1: Option<real>, m2: Option<real>, o1: Oracle, o2: Oracle)
    requires ForObject(p, obj, m1, o1).1.Success?
    ensures var (p1, s1) := ForObject(p, obj, m1, o1);
            ForObject(p1, obj, m2, o2) == (p1, s1)
  {
  }

  /** createCachedProvider(params): a TTL cache whose lock is the capacity-1
      synchronizer memoised for the new cache object `ref`. */
  function CreateCachedProvider<T>(p: Provider, ref: nat, cacheTimestamp: Option<T -> int>, defaultTTL: Option<int>, o: Oracle)
    : (r: (Provider, CachedProvider.Provider<T>, Synchronizer.Synchronizer))
    requires ObjRef(ref, "CachedProvider") !in p.objects.entries
    ensures r.1 == CachedProvider.New(cacheTimestamp, defaultTTL)
    ensures r.2.stats == Stats(1, 0, 0)
    ensures r.2.synchronizerId == ObjName(p.nextFree, "CachedProvider")
    ensures r.0.objects.entries == p.objects.entries[ObjRef(ref, "CachedProvider") := r.2]
    ensures r.0.nextFree == p.nextFree + 1
  {
    var (p1, s) := ForObject(p, ObjRef(ref, "CachedProvider"), Some(1.0), o);
    (p1, CachedProvider.New(cacheTimestamp, defaultTTL), s.value)
  }
}

=== FILE: types.dfy ===
/** The vocabulary shared by every gate: statistics, the identity of one call,
    the lifecycle event kinds and the event record handed to listeners. */
module Types {

  /** Live counters of one synchronizer. */
  datatype Stats = Stats(maxConcurrentExecution: int, numberOfTasks: int, numberOfRunningTasks: int)

  /** Identifies one call into one synchronizer of one provider. */
  datatype Context = Context(providerId: string, synchronizerId: string, executionId: string)

  /** Every lifecycle event kind the source declares. `Cancel` is declared but
      never emitted by any gate. */
  datatype EventType = Acquire | Acquired | Cancel | Enter | Exit | Release | Finish | Timeout | Throttle

  /** One emitted event: its kind, a copy of the stats and the call's context. */
  datatype Event = Event(eventType: EventType, stats: Stats, context: Context)

  /** An event listener: one caller-supplied callback, or a listener that
      calls several in order. */
  datatype Listener = Single(id: nat) | Merged(parts: seq<Listener>)

  /** The caller-supplied callbacks a listener invokes for one event, in order. */
  function Calls(l: Listener): seq<nat>
    decreases l
  {
    match l
    case Single(id) => [id]
    case Merged(parts) => CallsAll(parts)
  }

  function CallsAll(ls: seq<Listener>): seq<nat>
    decreases ls
  {
    if |ls| == 0 then [] else Calls(ls[0]) + CallsAll(ls[1..])
  }
}

=== FILE: weak_cache_provider.dfy ===
/** Per-object memoisation. The table is keyed by object identity; a stored
    value that JavaScript treats as falsy does not count as a hit, so the
    factory runs again for that key. Truthiness is the parameter `truthy`. */
module WeakCacheProvider {
  import opened Wrappers

  datatype Cache<K, V> = Cache(entries: map<K, V>)

  function New<K, V>(): (c: Cache<K, V>)
    ensures c.entries == map[]
  {
    Cache(map[])
  }

  /** The stored value for `key`, if there is one and it is truthy. */
  function Lookup<K, V>(c: Cache<K, V>, key: K, truthy: V -> bool): (r: Option<V>)
    ensures r.Some? <==> key in c.entries && truthy(c.entries[key])
    ensures r.Some? ==> r.value == c.entries[key]
  {
    if key in c.entries && truthy(c.entries[key]) then Some(c.entries[key]) else None
  }

  /** get(key, factory), where `made` is what the factory would return. Also
      tells whether the factory ran. */
  function Get<K, V>(c: Cache<K, V>, key: K, made: V, truthy: V -> bool): (r: (Cache<K, V>, V, bool))
    ensures r.2 <==> Lookup(c, key, truthy).None?
    ensures !r.2 ==> r.0 == c && r.1 == c.entries[key]
    ensures r.2 ==> r.1 == made && r.0.entries == c.entries[key := made]
  {
    var hit := Lookup(c, key, truthy);
    if hit.Some? then (c, hit.value, false)
    else (Cache(c.entries[key := made]), made, true)
  }

  /** A second get on the same key returns the first value without running the
      factory, provided that value is truthy; a falsy one is recomputed. */
  lemma SecondGetHits<K, V>(c: Cache<K, V>, key: K, made1: V, made2: V, truthy: V -> bool)
    ensures var (c1, v1, _) := Get(c, key, made1, truthy);
            var (c2, v2, called2) := Get(c1, key, made2, truthy);
            && (truthy(v1) ==> !called2 && v2 == v1 && c2 == c1)
            && (!truthy(v1) ==> called2 && v2 == made2)
  {
  }

  /** Keys are memoised independently: a get on one key changes nothing that
      a get on another key sees. */
  lemma KeysIndependent<K, V>(c: Cache<K, V>, k1: K, k2: K, made1: V, made2: V, truthy: V -> bool)
    requires k1 != k2
    ensures Get(Get(c, k1, made1, truthy).0, k2, made2, truthy).1 == Get(c, k2, made2, truthy).1
    ensures Get(Get(c, k1, made1, truthy).0, k2, made2, truthy).2 == Get(c, k2, made2, truthy).2
  {
    var c1 := Get(c, k1, made1, truthy).0;
    assert Lookup(c1, k2, truthy) == Lookup(c, k2, truthy);
  }
}

=== FILE: weak_index_map.dfy ===
/** A map from string keys to weakly held objects. An entry whose target has
    been collected stays in the map, and counts towards its size, until a
    sweep removes it. Reachability is an explicit flag on each entry, changed
    only by the environment step `Collect`. */
module WeakIndexMap {
  import opened Wrappers

  /** A weak reference: its target and whether the target is still reachable. */
  datatype WeakRef<T> = WeakRef(target: T, alive: bool)

  datatype IndexMap<!P, T> = IndexMap(toKey: P -> string, toIndex: P -> T, entries: map<string, WeakRef<T>>)

  function New<P, T>(toKey: P -> string, toIndex: P -> T): (m: IndexMap<P, T>)
    ensures m.entries == map[] && Size(m) == 0
  {
    IndexMap(toKey, toIndex, map[])
  }

  /** A reference whose target is gone. */
  predicate IsGarbageCollected<T>(r: WeakRef<T>) {
    !r.alive
  }

  /** What dereferencing the stored reference for `key` gives. */
  function Deref<P, T>(m: IndexMap<P, T>, key: string): Option<T> {
    if key in m.entries && !IsGarbageCollected(m.entries[key]) then Some(m.entries[key].target) else None
  }

  /** get(params): the live target stored under the key, or else a new index
      made by `toIndex`, stored under the key. Also tells whether `toIndex` ran. */
  function Get<P, T>(m: IndexMap<P, T>, params: P): (r: (IndexMap<P, T>, T, bool))
    ensures var key := m.toKey(params);
            && (Deref(m, key).Some? ==> r == (m, Deref(m, key).value, false))
            && (Deref(m, key).None? ==>
                  && r.1 == m.toIndex(params) && r.2
                  && r.0 == m.(entries := m.entries[key := WeakRef(r.1, true)]))
    ensures Deref(r.0, m.toKey(params)) == Some(r.1)
  {
    var key := m.toKey(params);
    var index := Deref(m, key);
    if index.Some? then (m, index.value, false)
    else
      var made := m.toIndex(params);
      (m.(entries := m.entries[key := WeakRef(made, true)]), made, true)
  }

  /** The number of stored entries, collected ones included. */
  function Size<P, T>(m: IndexMap<P, T>): nat {
    |m.entries|
  }

  /** Environment step: the target stored under `key` becomes unreachable. */
  function Collect<P, T>(m: IndexMap<P, T>, key: string): (r: IndexMap<P, T>)
    ensures key in m.entries ==> Deref(r, key).None? && Size(r) == Size(m)
    ensures forall k :: k != key ==> Deref(r, k) == Deref(m, k)
  {
    if key in m.entries then m.(entries := m.entries[key := m.entries[key].(alive := false)]) else m
  }

  /** The map with every collected entry removed and every live one kept. */
  function Swept<P, T>(m: IndexMap<P, T>): IndexMap<P, T> {
    m.(entries := map k | k in m.entries && !IsGarbageCollected(m.entries[k]) :: m.entries[k])
  }

  /** gc(): visits every key once and deletes the entry when its target is gone. */
  method Gc<P, T>(m: IndexMap<P, T>) returns (r: IndexMap<P, T>)
    ensures r == Swept(m)
    ensures forall k :: k in r.entries <==> k in m.entries && m.entries[k].alive
    ensures forall k :: k in r.entries ==> r.entries[k] == m.entries[k]
  {
    var entries := m.entries;
    var keys := m.entries.Keys;
    while keys != {}
      invariant keys <= m.entries.Keys
      invariant forall k :: k in entries <==> k in m.entries && (k in keys || m.entries[k].alive)
      invariant forall k :: k in entries ==> entries[k] == m.entries[k]
      decreases keys
    {
      var key :| key in keys;
      if key in entries && IsGarbageCollected(entries[key]) {
        entries := entries - {key};
      }
      keys := keys - {key};
    }
    assert entries == Swept(m).entries;
    r := m.(entries := entries);
  }

  /** A new key raises the size by one; a collected key is overwritten in place. */
  lemma GetSize<P, T>(m: IndexMap<P, T>, params: P)
    ensures m.toKey(params) !in m.entries ==> Size(Get(m, params).0) == Size(m) + 1
    ensures m.toKey(params) in m.entries ==> Size(Get(m, params).0) == Size(m)
  {
  }

  /** Sweeping twice is sweeping once. */
  lemma SweptIdempotent<P, T>(m: IndexMap<P, T>)
    ensures Swept(Swept(m)) == Swept(m)
  {
  }

  /** Sweeping never changes what get returns, nor whether `toIndex` runs. */
  lemma SweptKeepsGet<P, T>(m: IndexMap<P, T>, params: P)
    ensures Get(Swept(m), params).1 == Get(m, params).1
    ensures Get(Swept(m), params).2 == Get(m, params).2
  {
    assert Deref(Swept(m), m.toKey(params)) == Deref(m, m.toKey(params));
  }

  /** A second get with the same key returns the object the first stored. */
  lemma GetTwice<P, T>(m: IndexMap<P, T>, p1: P, p2: P)
    requires m.toKey(p1) == m.toKey(p2)
    ensures var (m1, x1, _) := Get(m, p1);
            Get(m1, p2) == (m1, x1, false)
  {
  }
}

=== FILE: wrappers.dfy ===
/** Failure-compatible wrappers used by every other module: an optional value
    (JavaScript's `undefined` versus a value) and a success/failure result
    (a settled promise or a thrown exception). */
module Wrappers {

  datatype Option<+T> = None | Some(value: T) {

    /** The value, or `default` when absent (JavaScript's `??`). */
    function GetOr(default: T): (r: T)
      ensures Some? ==> r == value
      ensures None? ==> r == default
    {
      match this
      case Some(v) => v
      case None => default
    }
  }

  datatype Result<+R, +E> = Success(value: R) | Failure(error: E) {

    predicate IsFailure() {
      Failure?
    }

    function PropagateFailure<U>(): Result<U, E>
      requires Failure?
    {
      Failure(error)
    }

    function Extract(): R
      requires Success?
    {
      value
    }
  }
}
